=== FILE: README.md ===
# Object pool and FPS overlay, modelled in Dafny

This project models two utilities of a Unity game.

The first is `ObjectPool`, which keeps pre-made copies of prefabs. It has:

- `m_PooledObjects`: idle instances, a FIFO list per prefab.
- `m_SpawnedObjects`: the instances handed out, each mapped back to its prefab.

The operations modelled are:

- creating pools, including the one-shot startup configuration;
- `Spawn`, `Recycle`, `RecycleAll`, `DestroyPooled` and `DestroyAll`;
- the read-only queries.

The second is `HUDFPS._UpdateFPSValue`. It folds each measured frame rate into:

- the displayed current value;
- a windowed or running average;
- a minimum and a maximum;
- a colour for each of these.

The overlay's Refresh button restarts the average and the extremes.

Modules:

- `PoolModel` (`pool_model.dfy`) holds the pool state.
  - Engine objects are natural-number ids.
  - `next` is the id the next `Object.Instantiate` returns.
  - `dead` is the set of destroyed objects, which Unity compares equal to `null`.
  - `Matches` is Unity's `==` between a stored prefab and an argument. Two non-null references are equal exactly when they are the same object, destroyed or not. A `null` argument equals every destroyed object.
  - The invariant `Valid` says:
    - every spawned instance names a prefab that has a pool;
    - no instance is both idle and spawned;
    - each idle instance sits in one slot of one pool;
    - every known id is below `next`;
    - clones are younger than their prefab.
- `ObjectPool` (`object_pool.dfy`) holds the state transitions as pure functions. Where the C# code can throw, the result is `Step(pool, outcome)`. The pool keeps whatever was changed before the throw, as in C#:
  - `Dictionary.Add` on a duplicate key;
  - the `m_PooledObjects[prefab]` indexer;
  - `Instantiate` of a destroyed prefab;
  - `go.transform` on a spawned instance that has been destroyed, which Recycle reaches after updating both maps.
- `PoolQueries` (`pool_queries.dfy`) holds the dictionary-walking queries. They are methods whose loops pick the next key arbitrarily, because dictionary enumeration order is unspecified.
- `PoolInvariant` (`pool_invariant.dfy`) proves that every operation preserves `Valid`, and proves the count and order facts relating operations.
- `PoolRecycleAll` (`pool_recycle_all.dfy`) holds `RecycleAll(prefab)`, `RecycleAll()` and `DestroyAll`.
- `RingWindow` (`ring_window.dfy`) holds the sample ring buffer in the abstract: writing sample k into slot k % n leaves exactly the last n samples.
- `HudFps` (`hud_fps.dfy`) holds the overlay state, `_UpdateFPSValue` (`Update`) and the Refresh button (`Refresh`).
- `HudFpsProps` (`hud_fps_props.dfy`) proves what a run of updates computes.
- `HudCountOverflow` (`hud_count_overflow.dfy`) holds the 32-bit sample counter as declared (see Findings).

## Model

| member | source | states |
|---|---|---|
| ObjectPool.CreatePool | Assets/Scripts/Utility/ObjectPool.cs:62-83 | For a non-null prefab that is alive and has no pool, it adds a pool of exactly max(initialPoolSize, 0) new instances. They are in creation order, with fresh ids. Nothing else changes. Otherwise the state is unchanged. |
| PoolInvariant.CreatePoolCounts | Assets/Scripts/Utility/ObjectPool.cs:62-83 | CreatePool raises CountAllPooled by exactly max(initialPoolSize, 0) when it registers a pool, and the new pool's CountPooled is that number. Any other call leaves CountAllPooled unchanged. |
| PoolInvariant.CreatePoolIdempotent | Assets/Scripts/Utility/ObjectPool.cs:62-83 | After CreatePool, a live prefab has a pool. A second CreatePool of the same prefab, with any size, changes nothing. |
| ObjectPool.CreateStartupPools | Assets/Scripts/Utility/ObjectPool.cs:42-56 | The first call creates a pool for every configured prefab that is non-null and alive, and sets the created flag. Every new pool belongs to a live configured prefab. It holds max(size, 0) newly created instances, where size comes from the first entry naming that prefab. Later calls change nothing. Existing pools and the spawned map are untouched. |
| PoolInvariant.CreateStartupPoolsOnce | Assets/Scripts/Utility/ObjectPool.cs:44-46 | Creating the startup pools twice is the same as creating them once. |
| PoolInvariant.CreateStartupPoolsValid | Assets/Scripts/Utility/ObjectPool.cs:42-56 | Creating the startup pools preserves the pool invariant. |
| ObjectPool.Spawn | Assets/Scripts/Utility/ObjectPool.cs:109-152 | With a live pooled instance: the leading destroyed entries and the first live one are removed from the front, that instance is returned, and it is recorded as spawned for the prefab (or Add throws if it is already spawned). With a pool holding no live entry: the pool is emptied and a new instance is recorded as spawned. With no pool: a new untracked instance. Instantiating a destroyed prefab throws. |
| PoolInvariant.SpawnValid | Assets/Scripts/Utility/ObjectPool.cs:114-141 | Spawn preserves the invariant. Under the invariant, the only way Spawn can throw is by instantiating a destroyed prefab. |
| PoolInvariant.SpawnFreshIsUnknown | Assets/Scripts/Utility/ObjectPool.cs:117-141 | When the pool has no live entry and the prefab is alive, Spawn succeeds. The instance it returns was not previously known to the pool. |
| PoolInvariant.SpawnUntracked | Assets/Scripts/Utility/ObjectPool.cs:143-151 | Spawning a live prefab without a pool succeeds. The result is not spawned in the pool's sense, and both maps are unchanged. |
| PoolInvariant.SpawnCounts | Assets/Scripts/Utility/ObjectPool.cs:114-141 | A successful Spawn from a pool with a live entry lowers CountPooled by the number of leading destroyed entries plus one. From a pool without one, it leaves CountPooled at 0. It grows the prefab's spawned set by exactly the returned instance, and leaves other prefabs' spawned sets unchanged. |
| ObjectPool.Recycle | Assets/Scripts/Utility/ObjectPool.cs:178-196 | An instance that is not spawned is only destroyed. A spawned instance whose prefab has no pool makes the indexer throw. Otherwise the instance is appended to the tail of its prefab's pool and removed from the spawned map. If that instance had been destroyed, the call then throws, and both map changes remain. |
| PoolInvariant.RecycleValid | Assets/Scripts/Utility/ObjectPool.cs:178-196 | Under the invariant, Recycle of an existing object throws exactly when it is a spawned instance that has been destroyed. Whether it throws or not, the invariant is preserved. |
| PoolInvariant.RecycleCounts | Assets/Scripts/Utility/ObjectPool.cs:178-196 | Recycling a spawned instance raises CountPooled of its prefab by 1 and CountAllPooled by 1. It removes exactly that instance from the prefab's spawned set. |
| PoolInvariant.SpawnThenRecycleRotates | Assets/Scripts/Utility/ObjectPool.cs:114-133 | When the front of the pool is live, spawning and then recycling moves that instance from the front to the tail (FIFO reuse). |
| PoolInvariant.SpawnFreshThenRecycle | Assets/Scripts/Utility/ObjectPool.cs:135-141 | When the pool has no live entry, spawning and then recycling leaves the pool holding exactly the new instance. |
| PoolRecycleAll.RecycleAll | Assets/Scripts/Utility/ObjectPool.cs:202-216 | It recycles, in order and each once, the spawned instances whose prefab compares equal to the argument under Unity's `==`. Each goes to the tail of its own prefab's pool. It throws exactly when one of them has been destroyed. It stops at the first such instance, after moving that one back. Without a throw, no matching instance stays spawned. With no match, nothing changes. For a non-null prefab, destroyed or not, only its own instances match. Its pool grows by exactly those instances, and other pools and other prefabs' spawned sets are unchanged. The invariant is preserved. |
| PoolRecycleAll.RecycleEverything | Assets/Scripts/Utility/ObjectPool.cs:217-225 | It recycles spawned instances in order, each once, to the tail of their own pools. It throws exactly when some spawned instance has been destroyed, stopping right after moving that one back. Without a throw the spawned map ends empty, and each pool is its old list followed by exactly the instances spawned from its prefab. The invariant is preserved. |
| PoolQueries.CountSpawned | Assets/Scripts/Utility/ObjectPool.cs:250-261 | The count is the number of spawned entries whose prefab compares equal to the argument under Unity's `==`. For a non-null prefab, destroyed or not, that is the number spawned from it. |
| PoolModel.MatchingSpawnedOf | Assets/Scripts/Utility/ObjectPool.cs:206 | A non-null prefab, destroyed or not, compares equal to exactly the stored prefab references of the instances spawned from it. |
| PoolModel.IsSpawned | Assets/Scripts/Utility/ObjectPool.cs:227-230 | True exactly when the object is in some prefab's spawned set. |
| PoolModel.CountPooled | Assets/Scripts/Utility/ObjectPool.cs:236-244 | The length of the prefab's pooled list, and 0 when it has no pool. |
| PoolQueries.CountAllPooled | Assets/Scripts/Utility/ObjectPool.cs:263-271 | The count is the sum of the lengths of all pooled lists. |
| ObjectPool.GetPooled | Assets/Scripts/Utility/ObjectPool.cs:273-289 | The result is the kept input followed by the prefab's pooled list. The input is kept only when it is non-null and appendList is set. The result's length is that input length plus CountPooled. |
| PoolQueries.GetSpawned | Assets/Scripts/Utility/ObjectPool.cs:311-329 | The result is the kept input followed, each exactly once, by the spawned instances whose prefab compares equal to the argument under Unity's `==`. For a non-null prefab, destroyed or not, those are exactly the instances spawned from it. |
| ObjectPool.DestroyPooled | Assets/Scripts/Utility/ObjectPool.cs:351-362 | It destroys every idle instance of the prefab and empties its list, keeping the pool. The destroyed set afterwards is exactly the earlier one plus those instances, so earlier destructions stay. The other pools, the spawned map and the creation counter are unchanged. Without a pool nothing changes. |
| PoolInvariant.DestroyPooledThenSpawnTracked | Assets/Scripts/Utility/ObjectPool.cs:351-362 | Because the pool key survives DestroyPooled, a later Spawn of a live prefab returns a new instance that is recorded as spawned. |
| PoolRecycleAll.DestroyAll | Assets/Scripts/Utility/ObjectPool.cs:368-372 | It throws exactly when one of the prefab's spawned instances has been destroyed. It then stops right after moving that instance back. Nothing is destroyed, and the instances recycled so far are at the tails of their pools. Otherwise, afterwards CountPooled and the spawned set of the prefab are both empty. The destroyed set is exactly the earlier one plus the prefab's spawned and idle instances. The spawned map loses exactly the prefab's instances. Without a pool for the prefab nothing happens. Other prefabs, the creation counter and the startup fields are unchanged either way. The invariant is preserved. |
| HudFps.Started | Assets/Scripts/Utility/HUDFPS.cs:55-69 | After Start, the minimum is int.MaxValue, the maximum is int.MinValue, the count is 0 and the buffer is not allocated. |
| HudFps.Update | Assets/Scripts/Utility/HUDFPS.cs:107-198 | A disabled overlay is unchanged. Otherwise the current value becomes the measured one and the shown average is the rounding of the unrounded average. Exactly when the refresh is dirty, the extremes and all four colours are updated. Otherwise extremes and colours are untouched. |
| HudFps.Accumulate | Assets/Scripts/Utility/HUDFPS.cs:121-158 | With window 0, the count grows by 1 and the running mean takes one step. Otherwise the buffer is allocated zeroed on first use, only slot count % window receives the reading, the count grows by 1, and the unrounded average is the buffer sum over min(count, window). |
| HudFps.TrackMin | Assets/Scripts/Utility/HUDFPS.cs:170-178 | A minimum of 0 or below restarts at int.MaxValue. Otherwise the result is the smaller of the minimum and the reading. |
| HudFps.TrackMax | Assets/Scripts/Utility/HUDFPS.cs:180-188 | A maximum of exactly -1 is replaced by the reading. Otherwise the result is the larger of the maximum and the reading. |
| HudFps.ColourOf | Assets/Scripts/Utility/HUDFPS.cs:193-196 | Green exactly from 30 up, red exactly strictly between 10 and 30, yellow exactly at 10 and below. |
| HudFps.RoundToInt | Assets/Scripts/Utility/HUDFPS.cs:160 | The result is within one half of the input, and a tie goes to the even integer. |
| HudFps.Refresh | Assets/Scripts/Utility/HUDFPS.cs:229-238 | The average value, count and unrounded average go to 0. The minimum goes to int.MaxValue and the maximum to int.MinValue. An allocated buffer is zeroed. The branch throws on the null buffer, after the resets, exactly when the buffer was never allocated. Current value and colours are untouched. |
| HudFps.MeanStepExtends | Assets/Scripts/Utility/HUDFPS.cs:125-126 | One incremental step from the mean of some readings gives the mean of those readings plus the new one. |
| RingWindow.RingSum | Assets/Scripts/Utility/HUDFPS.cs:140-148 | After any number of readings written round-robin into a zeroed buffer, the buffer's sum equals the sum of the last min(count, window) readings. |
| RingWindow.RingSlots | Assets/Scripts/Utility/HUDFPS.cs:140-141 | Each slot holds the latest reading written to it, and a slot never written holds 0. |
| HudFpsProps.FeedWindow | Assets/Scripts/Utility/HUDFPS.cs:130-160 | From a restarted average, after readings vs the count is |vs| and the unrounded average is the mean of the last min(|vs|, window) readings. The shown average is its rounding. |
| HudFpsProps.FeedRunningMean | Assets/Scripts/Utility/HUDFPS.cs:123-127 | With window 0 and the count at 0, after readings vs the unrounded average is the mean of all of them. |
| HudFpsProps.RefreshForgetsHistory | Assets/Scripts/Utility/HUDFPS.cs:229-238 | After Refresh with a window, whether or not the buffer was allocated, the average depends only on the readings taken since: it is the mean of their last window. |
| HudFpsProps.StartThenSample | Assets/Scripts/Utility/HUDFPS.cs:65-66 | After Start, the first reading strictly between 0 and int.MaxValue becomes the current value, the average, the minimum and the maximum. |
| HudFpsProps.RefreshThenSample | Assets/Scripts/Utility/HUDFPS.cs:229-238 | After Refresh, the first reading strictly between 0 and int.MaxValue becomes the average, the minimum and the maximum. This holds in windowed and running-mean mode, and also when Refresh threw after its resets. |
| HudCountOverflow.CountOverflowThrows | Assets/Scripts/Utility/HUDFPS.cs:140-141 | With the counter as a 32-bit int and a window of 100: once the counter holds int.MaxValue, the next sample writes slot 47 and wraps the counter to int.MinValue. The sample after that computes slot index -48, and the write throws. |
| HudCountOverflow.WrapAverageZero | Assets/Scripts/Utility/HUDFPS.cs:150-152 | In the refresh that wraps the counter, int.MinValue is below the window, so the total is divided by int.MinValue. For any total of at most 2^30 in size, the shown average is 0. |

## Left out

- Engine side effects are not part of the state: parenting, transforms, SetActive, the prefab's active flag during CreatePool, and the singleton `Instance`.
- The generic `Component` overloads, the convenience `Spawn` overloads and `ObjectPoolExtensions` only forward to the modelled `GameObject` operations, so they are not repeated.
- `Awake` and `Start` of the pool only choose when `CreateStartupPools` runs, so they are not modelled.
- Null arguments are modelled where the code tests them (CreatePool's prefab, the startup prefabs, the list argument of GetPooled/GetSpawned). They are also modelled where the code compares with Unity's `==`: in RecycleAll, CountSpawned and GetSpawned a null prefab matches every instance whose prefab was destroyed. A null `go` or `prefab` used as a dictionary key makes the dictionary throw `ArgumentNullException`. That happens in Spawn, Recycle, IsSpawned, CountPooled, GetPooled and DestroyPooled. Those operations take non-null ids. DestroyAll takes a non-null prefab. `DestroyAll(null)` first runs `RecycleAll(null)`, which recycles every spawned instance whose prefab was destroyed. Only then does `DestroyPooled(null)` throw. That sequence is not modelled as one call.
- `Object.Destroy` takes effect at once in the model, not at the end of the frame. Unity's refusal to destroy prefab assets is not modelled.
- Dictionary keys are compared by object identity, as `Dictionary` does with `GetHashCode` and `Equals`. Unity's `==`, under which `null` equals every destroyed object, is modelled only where the code writes `==`.
- PoolRecycleAll.RecycleAll: requires that every spawned instance's prefab has a pool. Otherwise the C# code throws KeyNotFoundException partway. That path is not modelled.
- PoolRecycleAll.RecycleEverything: carries the same requirement as RecycleAll.
- PoolRecycleAll.DestroyAll: carries the same requirement as RecycleAll.
- After a throw inside RecycleAll, the static `m_TempList` is never cleared, and the next RecycleAll also walks those stale entries. The model starts every RecycleAll with an empty list.
- The lists returned by GetPooled/GetSpawned are values in the model. The C# code fills and returns the caller's list object, and that aliasing is not modelled.
- Averages are exact reals, not 32-bit floats, so float rounding in the sum and the division is not modelled.
- The frame-rate measurement in `_UpdateFPSCounter` is not modelled: time, frame counts and the float-to-int cast. The measured value enters as `newValue`. `HudFpsProps.Sample` stands for one coroutine tick.
- The memory counters, the GUI drawing, VSync settings and the `Destroy(this.gameObject)` outside the editor are not modelled.
- Changing `m_AverageFromSamples` while the overlay runs is not modelled. The window is fixed, and `Update` requires an allocated buffer to have one slot per sample.
- The `[Range(0, 100)]` attribute on the window is reflected only by the window being a natural number. No upper bound is imposed.
- HudFps.Update: the sample counter is unbounded (see Findings). The declared 32-bit counter is modelled separately in HudCountOverflow.
- `SingletonMonoBehaviour.cs` and `MyDebug.cs` are not part of this model.

## Findings

| source | as written | input that shows it | evidently intended | confidence | as-written member | corrected member |
|---|---|---|---|---|---|---|
| Assets/Scripts/Utility/HUDFPS.cs:140-152 | `m_CurrentAverageSamples` is a 32-bit int that only ever increments. Its C# remainder takes the sign of the dividend. | Window 100, with the counter at 2147483647 after that many samples (about 34 years at the default 0.5 s interval). The next sample writes slot 47 and wraps the counter to int.MinValue. That refresh then divides the total by int.MinValue, because int.MinValue is below the window, so the shown average drops to 0 (HudCountOverflow.WrapAverageZero). The next refresh writes slot -48, which throws IndexOutOfRangeException. | The counter grows without bound, or saturates, so the slot index stays in [0, window) and the average stays the mean of the last window readings. | low (not executed; reachable only after decades of runtime) | HudCountOverflow.CountOverflowThrows | HudFpsProps.FeedWindow |

=== FILE: hud_count_overflow.dfy ===
/**
  The sample counter of the FPS overlay as the source declares it: a
  32-bit signed int. Incrementing int.MaxValue wraps to int.MinValue, and
  C#'s remainder truncates toward zero, so the next slot index is
  negative and the array write throws. The overlay model in HudFps keeps
  the counter unbounded, which is what the averaging evidently intends.
 */
module HudCountOverflow {
  import opened HudFps

  const Modulus: int := 0x1_0000_0000

  /** Two's-complement wrap-around of a 32-bit signed int. */
  function Wrap32(x: int): (r: int)
    ensures IntMin <= r <= IntMax
    ensures (x - r) % Modulus == 0
    ensures IntMin <= x <= IntMax ==> r == x
  {
    var m := (x - IntMin) % Modulus;
    m + IntMin
  }

  /** C#'s `%` on int: the remainder takes the sign of the dividend. */
  function TruncRem(a: int, n: int): (r: int)
    requires n > 0
    ensures a >= 0 ==> r == a % n
    ensures a < 0 ==> -n < r <= 0 && -r == (-a) % n
  {
    if a >= 0 then a % n else -((-a) % n)
  }

  /** The slot write and increment of the averaged refresh, with a 32-bit counter. */
  datatype SlotWrite = Written(slot: nat, next: int) | IndexOutOfRange

  function WriteSlotAsWritten(count: int, window: nat): (w: SlotWrite)
    requires window > 0 && IntMin <= count <= IntMax
    ensures w.Written? ==> w.slot < window && IntMin <= w.next <= IntMax
    ensures 0 <= count < IntMax ==> w == Written(count % window, count + 1)
    ensures w.IndexOutOfRange? <==> TruncRem(count, window) < 0
  {
    var i := TruncRem(count, window);
    if i < 0 then IndexOutOfRange
    else Written(i, Wrap32(count + 1))
  }

  /** The unrounded average of the averaged refresh with a 32-bit counter
      `count` (already incremented): a counter below the window divides the
      total by the counter itself. */
  function RawAsWritten(total: real, count: int, window: nat): (raw: real)
    requires count != 0 && window > 0
    ensures count < window ==> raw * count as real == total
    ensures count >= window ==> raw * window as real == total
  {
    if count < window then total / count as real else total / window as real
  }

  /** The refresh that wraps the counter to int.MinValue divides the total by
      int.MinValue, so for any total of at most 2^30 in size the average it
      shows is 0. */
  lemma WrapAverageZero(total: real, window: nat)
    requires window > 0
    requires -0x4000_0000 as real <= total <= 0x4000_0000 as real
    ensures RoundToInt(RawAsWritten(total, IntMin, window)) == 0
  {
  }

  /** With a window of 100 and the counter at int.MaxValue, the next sample
      writes slot 47 and wraps the counter to int.MinValue; the sample after
      that indexes slot -48. */
  lemma CountOverflowThrows()
    ensures WriteSlotAsWritten(IntMax, 100) == Written(47, IntMin)
    ensures TruncRem(IntMin, 100) == -48
    ensures WriteSlotAsWritten(IntMin, 100) == IndexOutOfRange
  {
  }
}

=== FILE: hud_fps.dfy ===
/**
  The FPS overlay's bookkeeping: one refresh of the displayed readings
  (current, average, minimum, maximum) from a newly measured frame rate,
  and the Refresh button that restarts the average and the extremes.
  Measuring the frame rate, the coroutine timing and the drawing are not
  part of the state; the measured value arrives in `newValue`.
 */
module HudFps {
  import opened RingWindow

  const IntMax: int := 0x7FFF_FFFF
  const IntMin: int := -0x8000_0000

  /** The colour of a reading; Unset is the default colour before any dirty refresh. */
  datatype Colour = Unset | Green | Red | Yellow

  /** FPSValue: a displayed number and its colour. */
  datatype Reading = Reading(value: int, colour: Colour)

  /** The sample array, null until the first averaged refresh allocates it. */
  datatype Buffer = Unallocated | Allocated(slots: seq<int>)

  datatype Hud = Hud(
    enabled: bool,
    window: nat,      // samples the average covers; 0 averages every sample ever taken
    newValue: int,    // the latest measured frame rate
    last: Reading,
    average: Reading,
    min: Reading,
    max: Reading,
    count: nat,       // samples taken since the average was last restarted
    raw: real,        // the unrounded average
    buffer: Buffer)

  /** An allocated buffer has one slot per averaged sample. */
  predicate WellFormed(h: Hud)
  {
    h.buffer.Allocated? ==> |h.buffer.slots| == h.window
  }

  /** The overlay once Start has run: everything at its default except the extremes. */
  function Started(enabled: bool, window: nat): (h: Hud)
    ensures WellFormed(h) && h.buffer.Unallocated? && h.count == 0
    ensures h.min.value == IntMax && h.max.value == IntMin
  {
    Hud(enabled, window, 0, Reading(0, Unset), Reading(0, Unset),
        Reading(IntMax, Unset), Reading(IntMin, Unset), 0, 0.0, Unallocated)
  }

  /** The colour rule: green from 30 up, red above 10, yellow otherwise. */
  function ColourOf(v: int): (c: Colour)
    ensures c == Green <==> v >= 30
    ensures c == Red <==> 10 < v < 30
    ensures c == Yellow <==> v <= 10
  {
    if v >= 30 then Green else if v > 10 then Red else Yellow
  }

  /** Mathf.RoundToInt: the nearest integer, halves going to the even neighbour. */
  function RoundToInt(x: real): (n: int)
    ensures -(1.0 / 2.0) <= x - n as real <= 1.0 / 2.0
    ensures (x - n as real == 1.0 / 2.0 || n as real - x == 1.0 / 2.0) ==> n % 2 == 0
  {
    var f := x.Floor;
    var frac := x - f as real;
    if frac < 1.0 / 2.0 then f
    else if frac > 1.0 / 2.0 then f + 1
    else if f % 2 == 0 then f
    else f + 1
  }

  /** The minimum's update on a dirty refresh: a non-positive minimum restarts at int.MaxValue. */
  function TrackMin(min: int, v: int): (r: int)
    ensures min <= 0 ==> r == IntMax
    ensures min > 0 ==> r <= min && r <= v && (r == min || r == v)
  {
    if 0 >= min then IntMax
    else if v < min then v
    else min
  }

  /** The maximum's update on a dirty refresh: a maximum of exactly -1 is replaced outright. */
  function TrackMax(max: int, v: int): (r: int)
    ensures max == -1 ==> r == v
    ensures max != -1 ==> r >= max && r >= v && (r == max || r == v)
  {
    if -1 == max then v
    else if v > max then v
    else max
  }

  /** One step of the running mean when the window is 0. */
  function MeanStep(raw: real, count: nat, v: int): real
  {
    raw + (v as real - raw) / (count + 1) as real
  }

  /** The arithmetic mean of a non-empty list of samples. */
  function Mean(vs: seq<int>): real
    requires |vs| > 0
  {
    Sum(vs) as real / |vs| as real
  }

  /** The running mean after one more sample is the mean of all samples so far. */
  lemma MeanStepExtends(vs: seq<int>, raw: real, v: int)
    requires |vs| == 0 || raw == Mean(vs)
    ensures MeanStep(raw, |vs|, v) == Mean(vs + [v])
  {
    SumAppend(vs, v);
    var c := |vs| as real;
    var s := Sum(vs) as real;
    if |vs| > 0 {
      assert raw * c == s;
      assert MeanStep(raw, |vs|, v) * (c + 1.0) == raw * (c + 1.0) + (v as real - raw);
    }
  }

  /** Allocation on the first averaged refresh: a zeroed buffer and a restarted average. */
  function Allocate(h: Hud): (r: Hud)
    requires WellFormed(h) && h.window > 0
    ensures r.buffer.Allocated? && |r.buffer.slots| == h.window
    ensures h.buffer.Allocated? ==> r == h
    ensures h.buffer.Unallocated? ==>
      && r.buffer.slots == Zeros(h.window)
      && r.count == 0 && r.raw == 0.0 && r.average.value == 0
      && r == h.(buffer := r.buffer, count := 0, raw := 0.0, average := h.average.(value := 0))
  {
    if h.buffer.Unallocated? then
      h.(buffer := Allocated(Zeros(h.window)), count := 0, raw := 0.0, average := h.average.(value := 0))
    else
      h
  }

  /** Folds the current reading into the average: the unrounded mean of the window. */
  function Accumulate(h: Hud): (r: Hud)
    requires WellFormed(h)
    ensures WellFormed(r)
    ensures r.enabled == h.enabled && r.window == h.window && r.newValue == h.newValue
    ensures r.last == h.last && r.min == h.min && r.max == h.max
    ensures r.average.colour == h.average.colour
    ensures r.count == (if h.window == 0 then h.count else Allocate(h).count) + 1
    ensures h.window == 0 ==>
      && r.buffer == h.buffer && r.average == h.average
      && r.raw == MeanStep(h.raw, h.count, h.last.value)
    ensures h.window > 0 ==>
      var a := Allocate(h);
      && r.buffer == Allocated(a.buffer.slots[a.count % h.window := h.last.value])
      && r.average == a.average
      && r.raw == Sum(r.buffer.slots) as real / MinNat(r.count, h.window) as real
  {
    if 0 == h.window then
      h.(count := h.count + 1, raw := MeanStep(h.raw, h.count, h.last.value))
    else
      var a := Allocate(h);
      var slots := a.buffer.slots[a.count % h.window := h.last.value];
      var count := a.count + 1;
      var total := Sum(slots);
      var raw := if count < h.window then total as real / count as real
                 else total as real / h.window as real;
      a.(buffer := Allocated(slots), count := count, raw := raw)
  }

  /** The reading stored as the current value and folded into the average. */
  function Taken(h: Hud): (r: Hud)
    requires WellFormed(h)
    ensures WellFormed(r) && r.last.value == h.newValue
  {
    Accumulate(h.(last := h.last.(value := h.newValue)))
  }

  /** Whether a refresh recolours the readings and updates the extremes:
      the current value or the rounded average changed, or it was forced. */
  predicate Dirty(h: Hud, force: bool)
    requires WellFormed(h)
  {
    || h.last.value != h.newValue
    || force
    || Taken(h).average.value != RoundToInt(Taken(h).raw)
  }

  /** HUDFPS._UpdateFPSValue(force) */
  function Update(h: Hud, force: bool): (r: Hud)
    requires WellFormed(h)
    ensures WellFormed(r)
    ensures !h.enabled ==> r == h
    ensures h.enabled ==>
      && r.enabled && r.window == h.window && r.newValue == h.newValue
      && r.last.value == h.newValue
      && r.count == Taken(h).count && r.raw == Taken(h).raw && r.buffer == Taken(h).buffer
      && r.average.value == RoundToInt(r.raw)
    ensures h.enabled && Dirty(h, force) ==>
      && r.min.value == TrackMin(h.min.value, h.newValue)
      && r.max.value == TrackMax(h.max.value, h.newValue)
      && r.last.colour == ColourOf(r.last.value)
      && r.average.colour == ColourOf(r.average.value)
      && r.min.colour == ColourOf(r.min.value)
      && r.max.colour == ColourOf(r.max.value)
    ensures h.enabled && !Dirty(h, force) ==>
      && r.min == h.min && r.max == h.max
      && r.last == h.last && r.average.colour == h.average.colour
  {
    if !h.enabled then h
    else
      var lastDirty := h.last.value != h.newValue || force;
      var h1 := if lastDirty then h.(last := h.last.(value := h.newValue)) else h;
      var h2 := Accumulate(h1);
      var rounded := RoundToInt(h2.raw);
      var averageDirty := h2.average.value != rounded || force;
      var h3 := if averageDirty then h2.(average := h2.average.(value := rounded)) else h2;
      if lastDirty || averageDirty then
        var min := TrackMin(h3.min.value, h3.last.value);
        var max := TrackMax(h3.max.value, h3.last.value);
        h3.(last := h3.last.(colour := ColourOf(h3.last.value)),
            average := h3.average.(colour := ColourOf(h3.average.value)),
            min := Reading(min, ColourOf(min)),
            max := Reading(max, ColourOf(max)))
      else
        h3
  }

  /** The result of pressing Refresh: the restarted overlay, and whether
      the branch threw on a null buffer (reading its length) after the resets. */
  datatype Pressed = Pressed(hud: Hud, threw: bool)

  /** The Refresh button of the overlay window. */
  function Refresh(h: Hud): (r: Pressed)
    requires WellFormed(h)
    ensures WellFormed(r.hud)
    ensures r.threw <==> h.buffer.Unallocated?
    ensures r.hud.average.value == 0 && r.hud.count == 0 && r.hud.raw == 0.0
    ensures r.hud.min.value == IntMax && r.hud.max.value == IntMin
    ensures h.buffer.Allocated? ==> r.hud.buffer == Allocated(Zeros(h.window))
    ensures h.buffer.Unallocated? ==> r.hud.buffer == Unallocated
    ensures r.hud.enabled == h.enabled && r.hud.window == h.window && r.hud.newValue == h.newValue
    ensures r.hud.last == h.last
    ensures r.hud.average.colour == h.average.colour
    ensures r.hud.min.colour == h.min.colour && r.hud.max.colour == h.max.colour
  {
    var reset := h.(average := h.average.(value := 0), count := 0, raw := 0.0,
                    min := h.min.(value := IntMax), max := h.max.(value := IntMin));
    match h.buffer
    case Unallocated => Pressed(reset, true)
    case Allocated(slots) => Pressed(reset.(buffer := Allocated(Zeros(|slots|))), false)
  }
}

=== FILE: hud_fps_props.dfy ===
/**
  What a run of refreshes of the FPS overlay computes: the average is the
  mean of the last `window` readings (or of every reading when the window
  is 0), Refresh makes the average forget everything before it, and the
  first reading after Start or Refresh becomes the minimum and maximum.
 */
module HudFpsProps {
  import opened RingWindow
  import opened HudFps

  /** One coroutine tick: a new measured value, then an unforced refresh. */
  function Sample(h: Hud, v: int): (r: Hud)
    requires WellFormed(h)
    ensures WellFormed(r) && r.enabled == h.enabled && r.window == h.window
  {
    Update(h.(newValue := v), false)
  }

  /** The overlay after the readings `vs`, in order. */
  function Feed(h: Hud, vs: seq<int>): (r: Hud)
    requires WellFormed(h)
    ensures WellFormed(r) && r.enabled == h.enabled && r.window == h.window
  {
    if |vs| == 0 then h
    else Sample(Feed(h, vs[..|vs| - 1]), vs[|vs| - 1])
  }

  /** A windowed average with nothing in it yet: as after Start or after Refresh. */
  predicate Restarted(h: Hud)
  {
    && WellFormed(h)
    && h.window > 0
    && h.count == 0
    && (h.buffer.Unallocated? || h.buffer == Allocated(Zeros(h.window)))
  }

  lemma RoundExact(n: int)
    ensures RoundToInt(n as real) == n
  {
  }

  /** One reading on top of the readings `vs0` keeps the buffer equal to the ring of all of them. */
  lemma SampleWindow(h0: Hud, vs0: seq<int>, v: int, n: nat)
    requires WellFormed(h0) && h0.enabled && h0.window == n && n > 0
    requires h0.count == |vs0|
    requires |vs0| == 0 ==> Restarted(h0)
    requires |vs0| > 0 ==> h0.buffer == Allocated(Ring(vs0, n))
    ensures var r := Sample(h0, v);
      && r.count == |vs0| + 1
      && r.buffer == Allocated(Ring(vs0 + [v], n))
      && r.raw == Sum(Window(vs0 + [v], n)) as real / MinNat(|vs0| + 1, n) as real
      && r.average.value == RoundToInt(r.raw)
  {
    var vs := vs0 + [v];
    assert vs[..|vs| - 1] == vs0;
    var t := Taken(h0.(newValue := v));
    var a := Allocate(h0.(newValue := v).(last := h0.last.(value := v)));
    assert a.count == |vs0|;
    if |vs0| == 0 {
      assert a.buffer.slots == Zeros(n) == Ring(vs0, n);
    }
    assert t.buffer.slots == Ring(vs, n);
    RingSum(vs, n);
  }

  /** The windowed average after the readings `vs` from a restarted state is the
      mean of the last min(|vs|, window) readings: Sum over the ring buffer is
      the sum of that window, for any number of readings. */
  lemma {:induction false} FeedWindow(h: Hud, vs: seq<int>)
    requires Restarted(h) && h.enabled
    ensures |vs| == 0 ==> Feed(h, vs) == h
    ensures |vs| > 0 ==>
      var r := Feed(h, vs);
      && r.count == |vs|
      && r.buffer == Allocated(Ring(vs, h.window))
      && r.raw == Sum(Window(vs, h.window)) as real / MinNat(|vs|, h.window) as real
      && r.average.value == RoundToInt(r.raw)
  {
    if |vs| > 0 {
      var vs0 := vs[..|vs| - 1];
      var v := vs[|vs| - 1];
      FeedWindow(h, vs0);
      assert vs == vs0 + [v];
      SampleWindow(Feed(h, vs0), vs0, v, h.window);
    }
  }

  /** One reading on top of the readings `vs0` keeps the running mean. */
  lemma SampleMean(h0: Hud, vs0: seq<int>, v: int)
    requires WellFormed(h0) && h0.enabled && h0.window == 0
    requires h0.count == |vs0|
    requires |vs0| > 0 ==> h0.raw == Mean(vs0)
    ensures Sample(h0, v).count == |vs0| + 1
    ensures Sample(h0, v).raw == Mean(vs0 + [v])
  {
    var t := Taken(h0.(newValue := v));
    assert t.raw == MeanStep(h0.raw, |vs0|, v);
    MeanStepExtends(vs0, h0.raw, v);
  }

  /** With a window of 0 the average is the mean of every reading since the count was 0. */
  lemma {:induction false} FeedRunningMean(h: Hud, vs: seq<int>)
    requires WellFormed(h) && h.enabled && h.window == 0 && h.count == 0
    ensures |vs| > 0 ==>
      var r := Feed(h, vs);
      && r.count == |vs|
      && r.raw == Mean(vs)
      && r.average.value == RoundToInt(Mean(vs))
  {
    if |vs| > 0 {
      var vs0 := vs[..|vs| - 1];
      var v := vs[|vs| - 1];
      FeedRunningMean(h, vs0);
      assert vs == vs0 + [v];
      SampleMean(Feed(h, vs0), vs0, v);
    }
  }

  /** Refresh leaves a restarted windowed average, and on an allocated buffer it does not throw. */
  lemma RefreshRestarts(h: Hud)
    requires WellFormed(h) && h.window > 0
    ensures h.buffer.Allocated? ==> !Refresh(h).threw
    ensures Restarted(Refresh(h).hud)
  {
  }

  /** After Refresh the average depends only on the readings taken since. */
  lemma RefreshForgetsHistory(h: Hud, vs: seq<int>)
    requires WellFormed(h) && h.enabled && h.window > 0
    requires |vs| > 0
    ensures Feed(Refresh(h).hud, vs).raw == Sum(Window(vs, h.window)) as real / MinNat(|vs|, h.window) as real
  {
    RefreshRestarts(h);
    FeedWindow(Refresh(h).hud, vs);
  }

  /** A dirty refresh with the extremes at int.MaxValue and int.MinValue makes
      a reading strictly between 0 and int.MaxValue both the minimum and the maximum. */
  lemma ExtremesRestart(h: Hud, v: int)
    requires WellFormed(h) && h.enabled
    requires h.min.value == IntMax && h.max.value == IntMin
    requires 0 < v < IntMax
    requires Dirty(h.(newValue := v), false)
    ensures Sample(h, v).min.value == v && Sample(h, v).max.value == v
  {
  }

  /** The first value of one sample after a restart is that sample itself. */
  lemma FirstSampleAverage(h: Hud, v: int)
    requires WellFormed(h) && h.enabled
    requires Restarted(h) || (h.window == 0 && h.count == 0)
    ensures Sample(h, v).raw == v as real && Sample(h, v).average.value == v
  {
    if h.window > 0 {
      FeedWindow(h, [v]);
      assert [v][..0] == [];
      assert Feed(h, [v]) == Sample(h, v);
      assert Window([v], h.window) == [v];
      assert Sum([v]) == v;
    }
    RoundExact(v);
  }

  /** After Start, the first positive reading below int.MaxValue is shown as
      the current value, the average, the minimum and the maximum. */
  lemma StartThenSample(window: nat, v: int)
    requires 0 < v < IntMax
    ensures var r := Sample(Started(true, window), v);
      && r.last.value == v && r.average.value == v
      && r.min.value == v && r.max.value == v
  {
    var h := Started(true, window);
    FirstSampleAverage(h, v);
    assert h.last.value != v;
    ExtremesRestart(h, v);
  }

  /** After Refresh, the first positive reading below int.MaxValue is shown as
      the average, the minimum and the maximum. */
  lemma RefreshThenSample(h: Hud, v: int)
    requires WellFormed(h) && h.enabled
    requires 0 < v < IntMax
    ensures var r := Sample(Refresh(h).hud, v);
      && r.average.value == v && r.min.value == v && r.max.value == v
  {
    var h' := Refresh(h).hud;
    assert Restarted(h') || (h'.window == 0 && h'.count == 0);
    FirstSampleAverage(h', v);
    assert Taken(h'.(newValue := v)).average.value == 0;
    ExtremesRestart(h', v);
  }
}

=== FILE: object_pool.dfy ===
/**
  The state transitions of ObjectPool: pool creation, spawning, recycling
  and destroying idle instances. Engine side effects (parenting, transforms,
  activation) are not part of the state; `Object.Instantiate` draws the
  engine's next id and `Object.Destroy` marks an object dead.
 */
module ObjectPool {
  import opened PoolModel

  /** Whether CreatePool registers a new pool: a live, non-null prefab without one. */
  predicate Registers(s: Pool, prefab: Nullable<Id>)
  {
    prefab.NonNull? && prefab.value !in s.dead && prefab.value !in s.pooled
  }

  /** ObjectPool.CreatePool(GameObject, int) */
  function CreatePool(s: Pool, prefab: Nullable<Id>, initialPoolSize: int): (r: Pool)
    ensures !Registers(s, prefab) ==> r == s
    ensures Registers(s, prefab) ==>
      var p := prefab.value;
      && r.pooled.Keys == s.pooled.Keys + {p}
      && (forall q :: q in s.pooled ==> r.pooled[q] == s.pooled[q])
      && |r.pooled[p]| == (if 0 < initialPoolSize then initialPoolSize else 0)
      && (forall i :: 0 <= i < |r.pooled[p]| ==> s.next <= r.pooled[p][i] < r.next)
      && (forall i, j :: 0 <= i < j < |r.pooled[p]| ==> r.pooled[p][i] < r.pooled[p][j])
      && r.next == s.next + |r.pooled[p]|
      && r.spawned == s.spawned && r.dead == s.dead
      && r.startupPools == s.startupPools && r.startupCreated == s.startupCreated
  {
    if Registers(s, prefab) then
      var n := if 0 < initialPoolSize then initialPoolSize else 0;
      s.(pooled := s.pooled[prefab.value := Fresh(s.next, n)], next := s.next + n)
    else
      s
  }

  /** The prefabs named by a startup configuration. */
  function StartupPrefabs(pools: seq<StartupPool>): set<Nullable<Id>>
  {
    set i | 0 <= i < |pools| :: pools[i].prefab
  }

  /** Index of the first startup entry naming `q`, or |pools| if none does. */
  function FirstIndex(pools: seq<StartupPool>, q: Id): (i: nat)
    ensures i <= |pools|
    ensures i < |pools| ==> pools[i].prefab == NonNull(q)
    ensures forall j :: 0 <= j < i ==> pools[j].prefab != NonNull(q)
  {
    if |pools| == 0 then 0
    else if pools[0].prefab == NonNull(q) then 0
    else 1 + FirstIndex(pools[1..], q)
  }

  /** The pool `q` received from the entry `e`: max(size, 0) instances created after `before`. */
  ghost predicate FilledFrom(s: Pool, r: Pool, q: Id, e: StartupPool)
    requires q in r.pooled
  {
    && |r.pooled[q]| == (if 0 < e.size then e.size else 0)
    && forall k :: 0 <= k < |r.pooled[q]| ==> s.next <= r.pooled[q][k] < r.next
  }

  /** The loop of CreateStartupPools: CreatePool for each entry in order. */
  function CreatePools(s: Pool, pools: seq<StartupPool>): (r: Pool)
    ensures r.spawned == s.spawned && r.dead == s.dead && s.next <= r.next
    ensures r.startupPools == s.startupPools && r.startupCreated == s.startupCreated
    ensures forall q :: q in s.pooled ==> q in r.pooled && r.pooled[q] == s.pooled[q]
    ensures forall i :: 0 <= i < |pools| && pools[i].prefab.NonNull? && pools[i].prefab.value !in s.dead
              ==> pools[i].prefab.value in r.pooled
    ensures forall q :: q in r.pooled && q !in s.pooled ==> NonNull(q) in StartupPrefabs(pools)
    // a new pool is for a live prefab, sized by the first entry that names it
    ensures forall q :: q in r.pooled && q !in s.pooled ==>
      && q !in s.dead && FirstIndex(pools, q) < |pools|
      && FilledFrom(s, r, q, pools[FirstIndex(pools, q)])
    decreases |pools|
  {
    if |pools| == 0 then s
    else
      var s1 := CreatePool(s, pools[0].prefab, pools[0].size);
      var r := CreatePools(s1, pools[1..]);
      assert forall i :: 1 <= i < |pools| ==> pools[i] == pools[1..][i - 1];
      assert StartupPrefabs(pools) == {pools[0].prefab} + StartupPrefabs(pools[1..]) by {
        forall x | x in StartupPrefabs(pools)
          ensures x in {pools[0].prefab} + StartupPrefabs(pools[1..])
        {
          var i :| 0 <= i < |pools| && pools[i].prefab == x;
          if i > 0 { assert pools[1..][i - 1].prefab == x; }
        }
      }
      assert forall q :: q in r.pooled && q !in s.pooled ==>
        && q !in s.dead && FirstIndex(pools, q) < |pools|
        && FilledFrom(s, r, q, pools[FirstIndex(pools, q)])
      by {
        forall q | q in r.pooled && q !in s.pooled
          ensures q !in s.dead && FirstIndex(pools, q) < |pools|
          ensures FilledFrom(s, r, q, pools[FirstIndex(pools, q)])
        {
          if q in s1.pooled {
            assert Registers(s, pools[0].prefab) && pools[0].prefab == NonNull(q);
            assert FirstIndex(pools, q) == 0;
          } else {
            assert pools[0].prefab != NonNull(q);
            assert FirstIndex(pools, q) == 1 + FirstIndex(pools[1..], q);
          }
        }
      }
      r
  }

  /** ObjectPool.CreateStartupPools: creates the configured pools the first time only. */
  function CreateStartupPools(s: Pool): (r: Pool)
    ensures r.startupCreated
    ensures s.startupCreated ==> r == s
    ensures r.spawned == s.spawned && r.dead == s.dead && r.startupPools == s.startupPools
    ensures forall q :: q in s.pooled ==> q in r.pooled && r.pooled[q] == s.pooled[q]
    ensures !s.startupCreated ==>
      forall i :: (0 <= i < |s.startupPools| && s.startupPools[i].prefab.NonNull?
                   && s.startupPools[i].prefab.value !in s.dead) ==> s.startupPools[i].prefab.value in r.pooled
    ensures !s.startupCreated ==>
      forall q :: q in r.pooled && q !in s.pooled ==>
        && q !in s.dead && FirstIndex(s.startupPools, q) < |s.startupPools|
        && FilledFrom(s, r, q, s.startupPools[FirstIndex(s.startupPools, q)])
  {
    if s.startupCreated then s
    else CreatePools(s.(startupCreated := true), s.startupPools)
  }

  /** Whether the prefab's pool holds an instance that has not been destroyed. */
  predicate HasLive(s: Pool, prefab: Id)
  {
    prefab in s.pooled && FirstLive(s.pooled[prefab], s.dead) < |s.pooled[prefab]|
  }

  /** ObjectPool.Spawn(GameObject, Transform, Vector3, Quaternion) */
  function Spawn(s: Pool, prefab: Id): (r: Step<Id>)
    ensures r.pool.dead == s.dead
    ensures r.pool.startupPools == s.startupPools && r.pool.startupCreated == s.startupCreated
    ensures r.pool.pooled.Keys == s.pooled.Keys
    ensures forall q :: q in s.pooled && q != prefab ==> r.pool.pooled[q] == s.pooled[q]
    // Reuse: leading destroyed entries are dropped, the first live one is handed out.
    ensures HasLive(s, prefab) ==>
      var list := s.pooled[prefab];
      var rest := r.pool.pooled[prefab];
      var m := |list| - |rest|;
      && 0 < m
      && list[m..] == rest
      && list[m - 1] !in s.dead
      && (forall j :: 0 <= j < m - 1 ==> list[j] in s.dead)
      && r.pool.next == s.next
      && (list[m - 1] !in s.spawned ==>
            r.outcome == Done(list[m - 1]) && r.pool.spawned == s.spawned[list[m - 1] := prefab])
      && (list[m - 1] in s.spawned ==>
            r.outcome == Threw(DuplicateKey) && r.pool.spawned == s.spawned)
    // A pool with no live entry: it is emptied and a new instance is made.
    ensures prefab in s.pooled && !HasLive(s, prefab) ==>
      && r.pool.pooled[prefab] == []
      && (forall j :: 0 <= j < |s.pooled[prefab]| ==> s.pooled[prefab][j] in s.dead)
      && (prefab !in s.dead ==>
            && r.outcome == Done(s.next) && r.pool.next == s.next + 1
            && r.pool.spawned == s.spawned[s.next := prefab])
      && (prefab in s.dead ==>
            r.outcome == Threw(InstantiateDestroyed) && r.pool.next == s.next && r.pool.spawned == s.spawned)
    // No pool: a new instance that the pool does not track.
    ensures prefab !in s.pooled ==>
      && r.pool.pooled == s.pooled && r.pool.spawned == s.spawned
      && (prefab !in s.dead ==> r.outcome == Done(s.next) && r.pool.next == s.next + 1)
      && (prefab in s.dead ==> r == Step(s, Threw(InstantiateDestroyed)))
  {
    if prefab in s.pooled then
      var list := s.pooled[prefab];
      var k := FirstLive(list, s.dead);
      if k < |list| then
        var go := list[k];
        var s1 := s.(pooled := s.pooled[prefab := list[k + 1..]]);
        if go in s.spawned then Step(s1, Threw(DuplicateKey))
        else Step(s1.(spawned := s.spawned[go := prefab]), Done(go))
      else
        var s1 := s.(pooled := s.pooled[prefab := []]);
        if prefab in s.dead then Step(s1, Threw(InstantiateDestroyed))
        else Step(s1.(spawned := s.spawned[s.next := prefab], next := s.next + 1), Done(s.next))
    else if prefab in s.dead then
      Step(s, Threw(InstantiateDestroyed))
    else
      Step(s.(next := s.next + 1), Done(s.next))
  }

  /** ObjectPool.Recycle(GameObject): back to its pool if spawned, otherwise destroyed. */
  function Recycle(s: Pool, go: Id): (r: Step<()>)
    ensures go !in s.spawned ==> r.outcome.Done? && r.pool == s.(dead := s.dead + {go})
    ensures go in s.spawned && s.spawned[go] !in s.pooled ==> r == Step(s, Threw(KeyNotFound))
    ensures go in s.spawned && s.spawned[go] in s.pooled ==>
      var p := s.spawned[go];
      // the maps are updated before `go.transform` throws on a destroyed instance
      && (r.outcome.Done? <==> go !in s.dead)
      && (go in s.dead ==> r.outcome == Threw(DestroyedInstance))
      && r.pool.pooled.Keys == s.pooled.Keys
      && r.pool.pooled[p] == s.pooled[p] + [go]
      && (forall q :: q in s.pooled && q != p ==> r.pool.pooled[q] == s.pooled[q])
      && !IsSpawned(r.pool, go)
      && r.pool.spawned.Keys == s.spawned.Keys - {go}
      && (forall g :: g in r.pool.spawned ==> r.pool.spawned[g] == s.spawned[g])
      && r.pool.dead == s.dead && r.pool.next == s.next
      && r.pool.startupPools == s.startupPools && r.pool.startupCreated == s.startupCreated
  {
    if go in s.spawned then
      var p := s.spawned[go];
      if p in s.pooled then
        var s1 := s.(pooled := s.pooled[p := s.pooled[p] + [go]], spawned := s.spawned - {go});
        if go in s.dead then Step(s1, Threw(DestroyedInstance)) else Step(s1, Done(()))
      else
        Step(s, Threw(KeyNotFound))
    else
      Step(s.(dead := s.dead + {go}), Done(()))
  }

  /** ObjectPool.DestroyPooled(GameObject): destroys the idle instances and keeps the pool. */
  function DestroyPooled(s: Pool, prefab: Id): (r: Pool)
    ensures prefab !in s.pooled ==> r == s
    ensures prefab in s.pooled ==>
      && r.pooled.Keys == s.pooled.Keys
      && CountPooled(r, prefab) == 0
      && (forall q :: q in s.pooled && q != prefab ==> r.pooled[q] == s.pooled[q])
      && r.dead == s.dead + (set x | x in s.pooled[prefab])
      && r.spawned == s.spawned && r.next == s.next
      && r.startupPools == s.startupPools && r.startupCreated == s.startupCreated
  {
    if prefab in s.pooled then
      var list := s.pooled[prefab];
      s.(pooled := s.pooled[prefab := []], dead := s.dead + (set x | x in list))
    else
      s
  }

  /** Object.Destroy called on `x` by code outside the pool. */
  function ExternalDestroy(s: Pool, x: Id): (r: Pool)
    ensures r.dead == s.dead + {x}
    ensures r.pooled == s.pooled && r.spawned == s.spawned && r.next == s.next
  {
    s.(dead := s.dead + {x})
  }

  /** The list GetPooled/GetSpawned fill: a new one when null, emptied unless appending. */
  function Target(list: Nullable<seq<Id>>, appendList: bool): (base: seq<Id>)
    ensures list.Null? || !appendList ==> base == []
    ensures list.NonNull? && appendList ==> base == list.value
  {
    if list.NonNull? && appendList then list.value else []
  }

  /** ObjectPool.GetPooled(GameObject, List, bool) */
  function GetPooled(s: Pool, prefab: Id, list: Nullable<seq<Id>>, appendList: bool): (r: seq<Id>)
    ensures |r| == |Target(list, appendList)| + CountPooled(s, prefab)
    ensures r[..|Target(list, appendList)|] == Target(list, appendList)
    ensures prefab in s.pooled ==> r[|Target(list, appendList)|..] == s.pooled[prefab]
  {
    var base := Target(list, appendList);
    if prefab in s.pooled then base + s.pooled[prefab] else base
  }
}

=== FILE: pool_invariant.dfy ===
/**
  The pool invariant (every spawned instance names an existing pool, no
  instance is both idle and spawned, idle instances are unique, every known
  object exists, clones are younger than their prefab) is kept by every
  operation, and under it the operations move counts by exactly one.
 */
module PoolInvariant {
  import opened PoolModel
  import opened ObjectPool
  import opened PoolQueries

  lemma CreatePoolValid(s: Pool, prefab: Nullable<Id>, initialPoolSize: int)
    requires Valid(s)
    requires prefab.NonNull? ==> Exists(s, prefab.value)
    ensures Valid(CreatePool(s, prefab, initialPoolSize))
  {
  }

  lemma {:induction false} CreatePoolsValid(s: Pool, pools: seq<StartupPool>)
    requires Valid(s)
    requires forall i :: 0 <= i < |pools| && pools[i].prefab.NonNull? ==> Exists(s, pools[i].prefab.value)
    ensures Valid(CreatePools(s, pools))
    decreases |pools|
  {
    if |pools| > 0 {
      var s1 := CreatePool(s, pools[0].prefab, pools[0].size);
      CreatePoolValid(s, pools[0].prefab, pools[0].size);
      assert forall i :: 1 <= i < |pools| ==> pools[i] == pools[1..][i - 1];
      CreatePoolsValid(s1, pools[1..]);
    }
  }

  /** The configured startup prefabs are existing objects. */
  predicate StartupExists(s: Pool)
  {
    forall i :: 0 <= i < |s.startupPools| && s.startupPools[i].prefab.NonNull?
      ==> Exists(s, s.startupPools[i].prefab.value)
  }

  lemma CreateStartupPoolsValid(s: Pool)
    requires Valid(s)
    requires StartupExists(s)
    ensures Valid(CreateStartupPools(s))
  {
    if !s.startupCreated {
      CreatePoolsValid(s.(startupCreated := true), s.startupPools);
    }
  }

  /** CreatePool registers a pool once; later calls for the same prefab change nothing. */
  lemma CreatePoolIdempotent(s: Pool, prefab: Id, n: int, m: int)
    ensures prefab in CreatePool(s, NonNull(prefab), n).pooled || prefab in s.dead
    ensures CreatePool(CreatePool(s, NonNull(prefab), n), NonNull(prefab), m) == CreatePool(s, NonNull(prefab), n)
  {
  }

  /** CreatePool raises the number of idle instances over all pools by the new pool's size. */
  lemma CreatePoolCounts(s: Pool, prefab: Nullable<Id>, initialPoolSize: int)
    ensures var r := CreatePool(s, prefab, initialPoolSize);
      var n := if Registers(s, prefab) && 0 < initialPoolSize then initialPoolSize else 0;
      && AllPooled(r) == AllPooled(s) + n
      && (Registers(s, prefab) ==> CountPooled(r, prefab.value) == n)
  {
    if Registers(s, prefab) {
      var r := CreatePool(s, prefab, initialPoolSize);
      assert r.pooled == s.pooled[prefab.value := r.pooled[prefab.value]];
      assert r.pooled.Keys == s.pooled.Keys + {prefab.value};
      TotalAddEmpty(s.pooled, prefab.value, r.pooled[prefab.value]);
    }
  }

  /** CreateStartupPools does its work at most once. */
  lemma CreateStartupPoolsOnce(s: Pool)
    ensures CreateStartupPools(CreateStartupPools(s)) == CreateStartupPools(s)
  {
  }

  /** Handing out the idle instance at index `k` of `prefab`'s pool keeps the invariant. */
  lemma TakeValid(s: Pool, prefab: Id, k: nat)
    requires Valid(s)
    requires prefab in s.pooled && k < |s.pooled[prefab]|
    ensures s.pooled[prefab][k] !in s.spawned
    ensures Valid(s.(pooled := s.pooled[prefab := s.pooled[prefab][k + 1..]],
                     spawned := s.spawned[s.pooled[prefab][k] := prefab]))
  {
    var list := s.pooled[prefab];
    var go := list[k];
    var rest := list[k + 1..];
    var t := s.(pooled := s.pooled[prefab := rest], spawned := s.spawned[go := prefab]);
    assert forall i :: 0 <= i < |rest| ==> rest[i] == list[k + 1 + i];
    assert Unique(t) by {
      forall q, i, q', j |
        q in t.pooled && q' in t.pooled && 0 <= i < |t.pooled[q]| && 0 <= j < |t.pooled[q']|
        && t.pooled[q][i] == t.pooled[q'][j]
        ensures q == q' && i == j
      {
        var i0 := if q == prefab then k + 1 + i else i;
        var j0 := if q' == prefab then k + 1 + j else j;
        assert s.pooled[q][i0] == s.pooled[q'][j0];
      }
    }
    assert Disjoint(t) by {
      forall q, i | q in t.pooled && 0 <= i < |t.pooled[q]|
        ensures t.pooled[q][i] !in t.spawned
      {
        var i0 := if q == prefab then k + 1 + i else i;
        assert s.pooled[q][i0] == t.pooled[q][i];
        assert s.pooled[q][i0] != go;
      }
    }
    assert BackRefs(t);
    assert Bounded(t);
    assert Younger(t);
  }

  /** Emptying `prefab`'s pool and spawning a new instance of it keeps the invariant. */
  lemma InstantiateValid(s: Pool, prefab: Id)
    requires Valid(s)
    requires prefab in s.pooled
    ensures s.next !in s.spawned
    ensures Valid(s.(pooled := s.pooled[prefab := []], spawned := s.spawned[s.next := prefab], next := s.next + 1))
  {
    var t := s.(pooled := s.pooled[prefab := []], spawned := s.spawned[s.next := prefab], next := s.next + 1);
    assert Disjoint(t);
    assert Unique(t);
    assert BackRefs(t);
    assert Bounded(t);
    assert Younger(t);
  }

  /** Under the invariant Spawn never meets an already-spawned pooled instance:
      the only exception left is instantiating a destroyed prefab. */
  lemma SpawnValid(s: Pool, prefab: Id)
    requires Valid(s)
    ensures Valid(Spawn(s, prefab).pool)
    ensures Spawn(s, prefab).outcome.Threw? ==>
              Spawn(s, prefab).outcome.fault == InstantiateDestroyed && prefab in s.dead
  {
    if prefab in s.pooled {
      var list := s.pooled[prefab];
      var k := FirstLive(list, s.dead);
      if k < |list| {
        TakeValid(s, prefab, k);
        assert Spawn(s, prefab).pool
            == s.(pooled := s.pooled[prefab := list[k + 1..]], spawned := s.spawned[list[k] := prefab]);
      } else if prefab !in s.dead {
        InstantiateValid(s, prefab);
        assert Spawn(s, prefab).pool
            == s.(pooled := s.pooled[prefab := []], spawned := s.spawned[s.next := prefab], next := s.next + 1);
      } else {
        ClearValid(s, prefab);
        assert Spawn(s, prefab).pool == s.(pooled := s.pooled[prefab := []]);
      }
    }
  }

  /** Emptying one pool keeps the invariant. */
  lemma ClearValid(s: Pool, prefab: Id)
    requires Valid(s)
    requires prefab in s.pooled
    ensures Valid(s.(pooled := s.pooled[prefab := []]))
  {
    var t := s.(pooled := s.pooled[prefab := []]);
    assert Unique(t) && Disjoint(t);
  }

  /** Putting a spawned instance back at the tail of its pool keeps the invariant. */
  lemma PutBackValid(s: Pool, go: Id)
    requires Valid(s)
    requires go in s.spawned
    ensures Valid(s.(pooled := s.pooled[s.spawned[go] := s.pooled[s.spawned[go]] + [go]],
                     spawned := s.spawned - {go}))
  {
    var p := s.spawned[go];
    var t := s.(pooled := s.pooled[p := s.pooled[p] + [go]], spawned := s.spawned - {go});
    assert forall q, i :: q in s.pooled && 0 <= i < |s.pooled[q]| ==> s.pooled[q][i] != go;
    assert Unique(t) by {
      forall q, i, q', j |
        q in t.pooled && q' in t.pooled && 0 <= i < |t.pooled[q]| && 0 <= j < |t.pooled[q']|
        && t.pooled[q][i] == t.pooled[q'][j]
        ensures q == q' && i == j
      {
        if !(q == p && i == |s.pooled[p]|) && !(q' == p && j == |s.pooled[p]|) {
          assert s.pooled[q][i] == s.pooled[q'][j];
        }
      }
    }
    assert Disjoint(t) by {
      forall q, i | q in t.pooled && 0 <= i < |t.pooled[q]|
        ensures t.pooled[q][i] !in t.spawned
      {
        if !(q == p && i == |s.pooled[p]|) {
          assert t.pooled[q][i] == s.pooled[q][i];
        }
      }
    }
    assert BackRefs(t);
    assert Bounded(t);
    assert Younger(t);
  }

  /** Under the invariant Recycle keeps the invariant, and it throws only for
      a spawned instance that has been destroyed (after moving it back). */
  lemma RecycleValid(s: Pool, go: Id)
    requires Valid(s)
    requires Exists(s, go)
    ensures Recycle(s, go).outcome.Done? <==> (go !in s.spawned || go !in s.dead)
    ensures Recycle(s, go).outcome.Threw? ==> Recycle(s, go).outcome == Threw(DestroyedInstance)
    ensures Valid(Recycle(s, go).pool)
  {
    if go in s.spawned {
      PutBackValid(s, go);
    }
  }

  lemma DestroyPooledValid(s: Pool, prefab: Id)
    requires Valid(s)
    ensures Valid(DestroyPooled(s, prefab))
  {
  }

  lemma ExternalDestroyValid(s: Pool, x: Id)
    requires Valid(s)
    requires Exists(s, x)
    ensures Valid(ExternalDestroy(s, x))
  {
  }

  /** A spawn that instantiates returns an object the pool has never seen. */
  lemma SpawnFreshIsUnknown(s: Pool, prefab: Id)
    requires Valid(s)
    requires !HasLive(s, prefab) && prefab !in s.dead
    ensures Spawn(s, prefab).outcome.Done?
    ensures !Known(s, Spawn(s, prefab).outcome.value)
  {
    if Known(s, s.next) {
      KnownExists(s, s.next);
    }
  }

  /** Spawning a prefab without a pool yields an instance the pool does not track. */
  lemma SpawnUntracked(s: Pool, prefab: Id)
    requires Valid(s)
    requires prefab !in s.pooled && prefab !in s.dead
    ensures Spawn(s, prefab).outcome.Done?
    ensures !IsSpawned(Spawn(s, prefab).pool, Spawn(s, prefab).outcome.value)
    ensures Spawn(s, prefab).pool.pooled == s.pooled && Spawn(s, prefab).pool.spawned == s.spawned
  {
  }

  /** A successful spawn from a pooled prefab adds exactly one instance to that prefab's spawned set. */
  lemma SpawnCounts(s: Pool, prefab: Id)
    requires Valid(s)
    requires prefab in s.pooled
    requires Spawn(s, prefab).outcome.Done?
    ensures var r := Spawn(s, prefab); var go := r.outcome.value;
      && go !in SpawnedOf(s, prefab)
      && SpawnedOf(r.pool, prefab) == SpawnedOf(s, prefab) + {go}
      && |SpawnedOf(r.pool, prefab)| == |SpawnedOf(s, prefab)| + 1
      && (forall q :: q != prefab ==> SpawnedOf(r.pool, q) == SpawnedOf(s, q))
      && (HasLive(s, prefab) ==>
            CountPooled(r.pool, prefab) == CountPooled(s, prefab) - (FirstLive(s.pooled[prefab], s.dead) + 1))
      && (!HasLive(s, prefab) ==> CountPooled(r.pool, prefab) == 0)
  {
    var r := Spawn(s, prefab);
    var go := r.outcome.value;
    if HasLive(s, prefab) {
      TakeValid(s, prefab, FirstLive(s.pooled[prefab], s.dead));
    } else {
      InstantiateValid(s, prefab);
    }
    SpawnedOfAdd(s, r.pool, go, prefab);
  }

  /** Recording one more spawned instance adds it to its prefab's spawned set only. */
  lemma SpawnedOfAdd(s: Pool, t: Pool, go: Id, prefab: Id)
    requires go !in s.spawned
    requires t.spawned == s.spawned[go := prefab]
    ensures go !in SpawnedOf(s, prefab)
    ensures SpawnedOf(t, prefab) == SpawnedOf(s, prefab) + {go}
    ensures |SpawnedOf(t, prefab)| == |SpawnedOf(s, prefab)| + 1
    ensures forall q :: q != prefab ==> SpawnedOf(t, q) == SpawnedOf(s, q)
  {
    assert SpawnedOf(t, prefab) == SpawnedOf(s, prefab) + {go};
    forall q | q != prefab
      ensures SpawnedOf(t, q) == SpawnedOf(s, q)
    {
      assert forall g :: g in SpawnedOf(t, q) <==> g in SpawnedOf(s, q);
    }
  }

  /** Recycling a spawned instance moves it from the spawned set to the tail of its pool. */
  lemma RecycleCounts(s: Pool, go: Id)
    requires Valid(s)
    requires IsSpawned(s, go)
    ensures var r := Recycle(s, go).pool; var p := s.spawned[go];
      && CountPooled(r, p) == CountPooled(s, p) + 1
      && SpawnedOf(r, p) == SpawnedOf(s, p) - {go}
      && |SpawnedOf(r, p)| + 1 == |SpawnedOf(s, p)|
      && (forall q :: q != p ==> SpawnedOf(r, q) == SpawnedOf(s, q) && CountPooled(r, q) == CountPooled(s, q))
      && AllPooled(r) == AllPooled(s) + 1
  {
    var r := Recycle(s, go).pool;
    var p := s.spawned[go];
    assert SpawnedOf(r, p) == SpawnedOf(s, p) - {go};
    TotalUpdate(s.pooled, s.pooled.Keys, p, s.pooled[p] + [go]);
    assert r.pooled == s.pooled[p := s.pooled[p] + [go]];
  }

  /** Spawning from a pool whose front instance is live and recycling it
      rotates the pool: the front instance moves to the tail. */
  lemma SpawnThenRecycleRotates(s: Pool, prefab: Id)
    requires Valid(s)
    requires prefab in s.pooled && |s.pooled[prefab]| > 0 && s.pooled[prefab][0] !in s.dead
    ensures var r1 := Spawn(s, prefab);
      && r1.outcome == Done(s.pooled[prefab][0])
      && var r2 := Recycle(r1.pool, r1.outcome.value);
      && r2.outcome.Done?
      && r2.pool.pooled == s.pooled[prefab := s.pooled[prefab][1..] + [s.pooled[prefab][0]]]
      && r2.pool.spawned == s.spawned
      && r2.pool.dead == s.dead && r2.pool.next == s.next
  {
    var list := s.pooled[prefab];
    assert FirstLive(list, s.dead) == 0;
    var r1 := Spawn(s, prefab);
    assert list[0] !in s.spawned;
    assert r1.pool.spawned == s.spawned[list[0] := prefab];
    var r2 := Recycle(r1.pool, list[0]);
    assert r2.pool.spawned == s.spawned;
  }

  /** Spawning from a pool without live instances and recycling the result
      leaves that new instance as the pool's only entry. */
  lemma SpawnFreshThenRecycle(s: Pool, prefab: Id)
    requires Valid(s)
    requires prefab in s.pooled && !HasLive(s, prefab) && prefab !in s.dead
    ensures var r1 := Spawn(s, prefab);
      && r1.outcome == Done(s.next)
      && var r2 := Recycle(r1.pool, s.next);
      && r2.outcome.Done?
      && r2.pool.pooled == s.pooled[prefab := [s.next]]
      && r2.pool.spawned == s.spawned
      && r2.pool.next == s.next + 1
  {
    assert s.next !in s.spawned && s.next !in s.dead;
    FreshThenRecycle(s, prefab);
  }

  /** The round trip above, for any fresh id the pool has not seen spawned or destroyed. */
  lemma FreshThenRecycle(s: Pool, prefab: Id)
    requires s.next !in s.spawned && s.next !in s.dead
    requires prefab in s.pooled && !HasLive(s, prefab) && prefab !in s.dead
    ensures var r1 := Spawn(s, prefab);
      && r1.outcome == Done(s.next)
      && var r2 := Recycle(r1.pool, s.next);
      && r2.outcome.Done?
      && r2.pool.pooled == s.pooled[prefab := [s.next]]
      && r2.pool.spawned == s.spawned
      && r2.pool.next == s.next + 1
  {
    var r1 := Spawn(s, prefab);
    assert r1.pool.spawned == s.spawned[s.next := prefab];
    assert r1.pool.pooled == s.pooled[prefab := []];
    var r2 := Recycle(r1.pool, s.next);
    assert r2.pool.pooled[prefab] == [s.next];
    assert r2.pool.spawned == s.spawned;
  }

  /** DestroyPooled keeps the pool registered, so the next Spawn is tracked as spawned. */
  lemma DestroyPooledThenSpawnTracked(s: Pool, prefab: Id)
    requires Valid(s)
    requires prefab in s.pooled && prefab !in s.dead
    ensures var d := DestroyPooled(s, prefab);
      && CountPooled(d, prefab) == 0
      && var r := Spawn(d, prefab);
      && r.outcome == Done(s.next)
      && IsSpawned(r.pool, r.outcome.value)
      && r.pool.spawned[r.outcome.value] == prefab
  {
    var d := DestroyPooled(s, prefab);
    assert prefab !in d.dead by {
      assert forall i :: 0 <= i < |s.pooled[prefab]| ==> s.pooled[prefab][i] != prefab;
    }
    assert !HasLive(d, prefab);
  }
}

=== FILE: pool_model.dfy ===
/**
  State of the object pool: which instances lie idle in which prefab's pool,
  which live instances were spawned from which prefab, and which engine
  objects have been destroyed.
 */
module PoolModel {

  /** Identity of an engine object (prefab or instance); the engine's instance id. */
  type Id = nat

  /** A C# reference that may be null. */
  datatype Nullable<T> = Null | NonNull(value: T)

  /** The exceptions the pool's own code can raise. */
  datatype Fault =
    | KeyNotFound           // Dictionary indexer on a missing prefab
    | DuplicateKey          // Dictionary.Add of an instance that is already spawned
    | InstantiateDestroyed  // Object.Instantiate of a destroyed prefab
    | DestroyedInstance     // a member access (`go.transform`) on a destroyed instance

  datatype Outcome<T> = Done(value: T) | Threw(fault: Fault)

  /** The state after an operation together with its result; the state keeps
      every change made before an exception, as the C# code does. */
  datatype Step<T> = Step(pool: Pool, outcome: Outcome<T>)

  /** One entry of the inspector-configured startup pools. */
  datatype StartupPool = StartupPool(size: int, prefab: Nullable<Id>)

  datatype Pool = Pool(
    pooled: map<Id, seq<Id>>,     // prefab -> idle instances, oldest first
    spawned: map<Id, Id>,         // live instance -> the prefab it came from
    dead: set<Id>,                // destroyed objects (they compare equal to null)
    next: nat,                    // the engine's next fresh instance id
    startupPools: seq<StartupPool>,
    startupCreated: bool)

  /** A pool with no prefabs registered, as the component starts. */
  function Empty(next: nat, startupPools: seq<StartupPool>): (s: Pool)
    ensures Valid(s)
  {
    Pool(map[], map[], {}, next, startupPools, false)
  }

  /** `n` freshly instantiated ids starting at `start`. */
  function Fresh(start: nat, n: nat): (ids: seq<Id>)
    ensures |ids| == n
    ensures forall i :: 0 <= i < n ==> ids[i] == start + i
  {
    seq(n, i requires 0 <= i < n => start + i)
  }

  /** Index of the first live entry of a pooled list, or |list| if every entry is destroyed. */
  function FirstLive(list: seq<Id>, dead: set<Id>): (k: nat)
    ensures k <= |list|
    ensures forall j :: 0 <= j < k ==> list[j] in dead
    ensures k < |list| ==> list[k] !in dead
  {
    if |list| == 0 then 0
    else if list[0] !in dead then 0
    else 1 + FirstLive(list[1..], dead)
  }

  /** The live instances spawned from `prefab`. */
  function SpawnedOf(s: Pool, prefab: Id): set<Id>
  {
    set g | g in s.spawned.Keys && s.spawned[g] == prefab
  }

  /** ObjectPool.IsSpawned: whether `go` was spawned from some prefab and not recycled since. */
  function IsSpawned(s: Pool, go: Id): (b: bool)
    ensures b <==> exists p :: go in SpawnedOf(s, p)
  {
    assert go in s.spawned ==> go in SpawnedOf(s, s.spawned[go]);
    go in s.spawned
  }

  /** Unity's `==` between a spawned entry's prefab `v` and the argument
      `prefab`: two references are equal when they are the same object,
      destroyed or not, and a null argument equals every destroyed object. */
  predicate Matches(s: Pool, v: Id, prefab: Nullable<Id>)
  {
    if prefab.Null? then v in s.dead else v == prefab.value
  }

  /** The spawned instances whose prefab compares equal to `prefab` under Unity's `==`. */
  function MatchingSpawned(s: Pool, prefab: Nullable<Id>): set<Id>
  {
    set g | g in s.spawned.Keys && Matches(s, s.spawned[g], prefab)
  }

  /** A non-null prefab, destroyed or not, matches exactly the instances spawned from it. */
  lemma MatchingSpawnedOf(s: Pool, prefab: Id)
    ensures MatchingSpawned(s, NonNull(prefab)) == SpawnedOf(s, prefab)
  {
  }

  /** ObjectPool.CountPooled */
  function CountPooled(s: Pool, prefab: Id): (n: nat)
    ensures prefab !in s.pooled ==> n == 0
    ensures prefab in s.pooled ==> n == |s.pooled[prefab]|
  {
    if prefab in s.pooled then |s.pooled[prefab]| else 0
  }

  /** Every spawned instance names a prefab that has a pool. */
  ghost predicate BackRefs(s: Pool)
  {
    forall g :: g in s.spawned ==> s.spawned[g] in s.pooled
  }

  /** No idle instance is also spawned. */
  ghost predicate Disjoint(s: Pool)
  {
    forall p, i :: p in s.pooled && 0 <= i < |s.pooled[p]| ==> s.pooled[p][i] !in s.spawned
  }

  /** Every idle instance sits in exactly one slot of one pool. */
  ghost predicate Unique(s: Pool)
  {
    forall p, i, q, j ::
      (p in s.pooled && q in s.pooled && 0 <= i < |s.pooled[p]| && 0 <= j < |s.pooled[q]|
       && s.pooled[p][i] == s.pooled[q][j]) ==> p == q && i == j
  }

  /** Every object the pool knows of already exists, so a fresh id is unknown. */
  ghost predicate Bounded(s: Pool)
  {
    && (forall p :: p in s.pooled ==> p < s.next)
    && (forall p, i :: p in s.pooled && 0 <= i < |s.pooled[p]| ==> s.pooled[p][i] < s.next)
    && (forall g :: g in s.spawned ==> g < s.next)
    && (forall d :: d in s.dead ==> d < s.next)
  }

  /** An instance is created after the prefab it was cloned from. */
  ghost predicate Younger(s: Pool)
  {
    && (forall p, i :: p in s.pooled && 0 <= i < |s.pooled[p]| ==> p < s.pooled[p][i])
    && (forall g :: g in s.spawned ==> s.spawned[g] < g)
  }

  ghost predicate Valid(s: Pool)
  {
    BackRefs(s) && Disjoint(s) && Unique(s) && Bounded(s) && Younger(s)
  }

  /** The object exists in the engine (it has been created). */
  predicate Exists(s: Pool, x: Id)
  {
    x < s.next
  }

  /** Whether `x` is mentioned anywhere in the pool's state. */
  ghost predicate Known(s: Pool, x: Id)
  {
    || x in s.pooled
    || (exists p, i :: p in s.pooled && 0 <= i < |s.pooled[p]| && s.pooled[p][i] == x)
    || x in s.spawned
    || x in s.spawned.Values
    || x in s.dead
  }

  /** In a valid pool every known object exists. */
  lemma KnownExists(s: Pool, x: Id)
    requires Valid(s)
    requires Known(s, x)
    ensures Exists(s, x)
  {
    if x in s.spawned.Values {
      var g :| g in s.spawned && s.spawned[g] == x;
    }
  }
}

=== FILE: pool_queries.dfy ===
/**
  The pool's read-only queries that walk a dictionary: CountSpawned,
  CountAllPooled and GetSpawned. Dictionary enumeration order is not
  specified, so the loops pick the next key arbitrarily.
 */
module PoolQueries {
  import opened PoolModel
  import opened ObjectPool

  /** A sequence without repeated elements. */
  ghost predicate Distinct(xs: seq<Id>)
  {
    forall i, j :: 0 <= i < |xs| && 0 <= j < |xs| && xs[i] == xs[j] ==> i == j
  }

  /** The elements of a sequence. */
  function Elems(xs: seq<Id>): set<Id>
  {
    set x | x in xs
  }

  /** The elements of a concatenation are those of its two parts. */
  lemma ElemsAppend(xs: seq<Id>, ys: seq<Id>)
    ensures Elems(xs + ys) == Elems(xs) + Elems(ys)
  {
  }

  /** Appending an element not yet present keeps a sequence duplicate-free. */
  lemma DistinctAppend(xs: seq<Id>, x: Id)
    requires Distinct(xs) && x !in xs
    ensures Distinct(xs + [x])
  {
    var ys := xs + [x];
    forall i, j | 0 <= i < |ys| && 0 <= j < |ys| && ys[i] == ys[j]
      ensures i == j
    {
      if i < |xs| && j < |xs| {
        assert xs[i] == xs[j];
      }
    }
  }

  /** A duplicate-free sequence has as many elements as its set. */
  lemma {:induction false} DistinctCard(xs: seq<Id>)
    requires Distinct(xs)
    ensures |Elems(xs)| == |xs|
  {
    if |xs| == 0 {
      assert Elems(xs) == {};
    } else {
      var init := xs[..|xs| - 1];
      assert xs == init + [xs[|xs| - 1]];
      assert Distinct(init);
      DistinctCard(init);
      var last := xs[|xs| - 1];
      var before := Elems(init);
      assert Elems(xs) == before + {last};
      assert last !in before;
    }
  }

  /** ObjectPool.CountSpawned(GameObject): the number of live instances whose
      prefab compares equal to `prefab` under Unity's `==`: for a non-null
      prefab, exactly the instances spawned from it. */
  method CountSpawned(s: Pool, prefab: Nullable<Id>) returns (count: nat)
    ensures count == |MatchingSpawned(s, prefab)|
    ensures prefab.NonNull? ==> count == |SpawnedOf(s, prefab.value)|
  {
    ghost var matching := MatchingSpawned(s, prefab);
    count := 0;
    var rest := s.spawned.Keys;
    while rest != {}
      invariant rest <= s.spawned.Keys
      invariant count == |matching - rest|
      decreases rest
    {
      var g :| g in rest;
      assert g in matching <==> Matches(s, s.spawned[g], prefab);
      SeenOneMore(matching, rest, g);
      if Matches(s, s.spawned[g], prefab) {
        count := count + 1;
      }
      rest := rest - {g};
    }
    assert matching - rest == matching;
    if prefab.NonNull? {
      MatchingSpawnedOf(s, prefab.value);
    }
  }

  /** Taking `g` off the unvisited keys adds it to the visited part of `m` exactly when it is in `m`. */
  lemma SeenOneMore(m: set<Id>, rest: set<Id>, g: Id)
    requires g in rest
    ensures |m - (rest - {g})| == |m - rest| + (if g in m then 1 else 0)
  {
    if g in m {
      assert m - (rest - {g}) == (m - rest) + {g};
    } else {
      assert m - (rest - {g}) == m - rest;
    }
  }

  /** Total length of the pooled lists of the prefabs in `keys`. */
  ghost function Total(m: map<Id, seq<Id>>, keys: set<Id>): nat
    requires keys <= m.Keys
    decreases keys
  {
    if keys == {} then 0
    else
      var k :| k in keys;
      |m[k]| + Total(m, keys - {k})
  }

  /** The total can be taken apart at any key, whichever one Total picked. */
  lemma {:induction false} TotalRemove(m: map<Id, seq<Id>>, keys: set<Id>, k: Id)
    requires keys <= m.Keys
    requires k in keys
    ensures Total(m, keys) == |m[k]| + Total(m, keys - {k})
    decreases keys
  {
    var j :| j in keys && Total(m, keys) == |m[j]| + Total(m, keys - {j});
    if j != k {
      TotalRemove(m, keys - {j}, k);
      TotalRemove(m, keys - {k}, j);
      assert keys - {j} - {k} == keys - {k} - {j};
    }
  }

  /** Replacing one list changes the total by the difference of the lengths. */
  lemma {:induction false} TotalUpdate(m: map<Id, seq<Id>>, keys: set<Id>, k: Id, v: seq<Id>)
    requires keys <= m.Keys
    requires k in keys
    ensures Total(m[k := v], keys) + |m[k]| == Total(m, keys) + |v|
  {
    TotalRemove(m, keys, k);
    TotalRemove(m[k := v], keys, k);
    TotalSame(m, m[k := v], keys - {k});
  }

  /** Maps that agree on `keys` have the same total there. */
  lemma {:induction false} TotalSame(m: map<Id, seq<Id>>, m': map<Id, seq<Id>>, keys: set<Id>)
    requires keys <= m.Keys && keys <= m'.Keys
    requires forall q :: q in keys ==> |m[q]| == |m'[q]|
    ensures Total(m, keys) == Total(m', keys)
    decreases keys
  {
    if keys != {} {
      var k :| k in keys;
      TotalRemove(m, keys, k);
      TotalRemove(m', keys, k);
      TotalSame(m, m', keys - {k});
    }
  }

  /** Adding a new key adds the length of its list to the total. */
  lemma TotalAddEmpty(m: map<Id, seq<Id>>, k: Id, v: seq<Id>)
    requires k !in m
    ensures Total(m[k := v], m.Keys + {k}) == Total(m, m.Keys) + |v|
  {
    TotalRemove(m[k := v], m.Keys + {k}, k);
    assert m.Keys + {k} - {k} == m.Keys;
    TotalSame(m, m[k := v], m.Keys);
  }

  /** Every idle instance in every pool. */
  ghost function AllPooled(s: Pool): nat
  {
    Total(s.pooled, s.pooled.Keys)
  }

  /** ObjectPool.CountAllPooled: the sum of the lengths of all pooled lists. */
  method CountAllPooled(s: Pool) returns (count: nat)
    ensures count == AllPooled(s)
  {
    count := 0;
    var rest := s.pooled.Keys;
    while rest != {}
      invariant rest <= s.pooled.Keys
      invariant count + Total(s.pooled, rest) == AllPooled(s)
      decreases rest
    {
      var k :| k in rest;
      TotalRemove(s.pooled, rest, k);
      count := count + |s.pooled[k]|;
      rest := rest - {k};
    }
  }

  /** ObjectPool.GetSpawned(GameObject, List, bool): the instances whose prefab
      compares equal to `prefab` under Unity's `==`, each once, in dictionary
      order after the kept contents of `list`. */
  method GetSpawned(s: Pool, prefab: Nullable<Id>, list: Nullable<seq<Id>>, appendList: bool)
    returns (r: seq<Id>)
    ensures |r| == |Target(list, appendList)| + |MatchingSpawned(s, prefab)|
    ensures r[..|Target(list, appendList)|] == Target(list, appendList)
    ensures forall g :: g in r[|Target(list, appendList)|..] <==> g in MatchingSpawned(s, prefab)
    ensures Distinct(r[|Target(list, appendList)|..])
    ensures prefab.NonNull? ==>
      forall g :: g in r[|Target(list, appendList)|..] <==> g in SpawnedOf(s, prefab.value)
  {
    var base := Target(list, appendList);
    var found: seq<Id> := [];
    var rest := s.spawned.Keys;
    while rest != {}
      invariant rest <= s.spawned.Keys
      invariant forall g :: g in found <==> g in MatchingSpawned(s, prefab) - rest
      invariant Distinct(found)
      decreases rest
    {
      var g :| g in rest;
      if Matches(s, s.spawned[g], prefab) {
        assert g !in found;
        DistinctAppend(found, g);
        found := found + [g];
      }
      rest := rest - {g};
    }
    DistinctCard(found);
    assert Elems(found) == MatchingSpawned(s, prefab);
    r := base + found;
    assert r[..|base|] == base && r[|base|..] == found;
    if prefab.NonNull? {
      MatchingSpawnedOf(s, prefab.value);
    }
  }
}

=== FILE: pool_recycle_all.dfy ===
/**
  RecycleAll (for one prefab and for every prefab) and DestroyAll. Both
  RecycleAll variants first copy the matching spawned instances into a
  temporary list and then recycle them one by one, so the order in which
  they reach the pool is the dictionary's enumeration order, which the
  model leaves unspecified. Recycling a spawned instance that has been
  destroyed moves it back and then throws, which ends the loop: the
  instances before it, and that one, are recycled; the rest stay spawned.
 */
module PoolRecycleAll {
  import opened PoolModel
  import opened ObjectPool
  import opened PoolQueries
  import opened PoolInvariant

  /** The instances of `xs` whose spawned entry names `prefab`, in order. */
  function OfPrefab(xs: seq<Id>, spawned: map<Id, Id>, prefab: Id): seq<Id>
  {
    if |xs| == 0 then []
    else
      var last := xs[|xs| - 1];
      OfPrefab(xs[..|xs| - 1], spawned, prefab) + (if last in spawned && spawned[last] == prefab then [last] else [])
  }

  /** Extending the prefix by one instance extends the filtered prefix by at most that instance. */
  lemma OfPrefabStep(xs: seq<Id>, i: nat, spawned: map<Id, Id>, prefab: Id)
    requires i < |xs|
    ensures OfPrefab(xs[..i + 1], spawned, prefab)
            == OfPrefab(xs[..i], spawned, prefab) + (if xs[i] in spawned && spawned[xs[i]] == prefab then [xs[i]] else [])
  {
    assert xs[..i + 1][..i] == xs[..i];
  }

  lemma {:induction false} OfPrefabElems(xs: seq<Id>, spawned: map<Id, Id>, prefab: Id)
    ensures forall g :: g in OfPrefab(xs, spawned, prefab) <==> g in xs && g in spawned && spawned[g] == prefab
    ensures Distinct(xs) ==> Distinct(OfPrefab(xs, spawned, prefab))
  {
    if |xs| > 0 {
      var init := xs[..|xs| - 1];
      assert xs == init + [xs[|xs| - 1]];
      OfPrefabElems(init, spawned, prefab);
      if Distinct(xs) {
        assert Distinct(init);
      }
    }
  }

  /** The keys of the spawned map, each once, in enumeration order (m_TempList.AddRange). */
  method SpawnedKeys(s: Pool) returns (keys: seq<Id>)
    ensures Distinct(keys)
    ensures forall g :: g in keys <==> g in s.spawned
  {
    keys := [];
    var rest := s.spawned.Keys;
    while rest != {}
      invariant rest <= s.spawned.Keys
      invariant forall g :: g in keys <==> g in s.spawned && g !in rest
      invariant Distinct(keys)
      decreases rest
    {
      var g :| g in rest;
      keys := keys + [g];
      rest := rest - {g};
    }
  }

  /** `t` is `s` after recycling the spawned instances `done`, in that order:
      each sits at the tail of its own prefab's pool and is no longer spawned. */
  ghost predicate MovedBack(s: Pool, t: Pool, done: seq<Id>)
  {
    && t.pooled.Keys == s.pooled.Keys
    && (forall q :: q in s.pooled ==> t.pooled[q] == s.pooled[q] + OfPrefab(done, s.spawned, q))
    && t.spawned.Keys == s.spawned.Keys - Elems(done)
    && (forall g :: g in t.spawned ==> t.spawned[g] == s.spawned[g])
    && t.dead == s.dead && t.next == s.next
    && t.startupPools == s.startupPools && t.startupCreated == s.startupCreated
  }

  /** Appending `g` to its prefab's pool extends what has been moved back by `g`. */
  lemma AppendedPools(s: Pool, t: Pool, u: Pool, done: seq<Id>, g: Id)
    requires MovedBack(s, t, done)
    requires g in s.spawned && s.spawned[g] in s.pooled
    requires u.pooled == t.pooled[s.spawned[g] := t.pooled[s.spawned[g]] + [g]]
    ensures forall q :: q in s.pooled ==> u.pooled[q] == s.pooled[q] + OfPrefab(done + [g], s.spawned, q)
  {
    var p := s.spawned[g];
    var xs := done + [g];
    assert xs[..|done|] == done && xs[..|done| + 1] == xs;
    forall q | q in s.pooled
      ensures u.pooled[q] == s.pooled[q] + OfPrefab(xs, s.spawned, q)
    {
      OfPrefabStep(xs, |done|, s.spawned, q);
      var before := s.pooled[q];
      var moved := OfPrefab(done, s.spawned, q);
      if q == p {
        assert OfPrefab(xs, s.spawned, q) == moved + [g];
        assert u.pooled[q] == (before + moved) + [g];
        assert (before + moved) + [g] == before + (moved + [g]);
      } else {
        assert OfPrefab(xs, s.spawned, q) == moved;
      }
    }
  }

  /** One iteration of the recycling loop, as seen by the pools. */
  lemma RecycleStepPooled(s: Pool, t: Pool, done: seq<Id>, g: Id)
    requires BackRefs(s)
    requires MovedBack(s, t, done)
    requires g in s.spawned && g !in Elems(done)
    ensures forall q :: q in s.pooled ==>
              Recycle(t, g).pool.pooled[q] == s.pooled[q] + OfPrefab(done + [g], s.spawned, q)
  {
    var p := s.spawned[g];
    var u := Recycle(t, g).pool;
    assert u.pooled == t.pooled[p := t.pooled[p] + [g]];
    AppendedPools(s, t, u, done, g);
  }

  /** One iteration of the recycling loop: it throws exactly on a destroyed instance. */
  lemma RecycleStep(s: Pool, t: Pool, done: seq<Id>, g: Id)
    requires BackRefs(s)
    requires MovedBack(s, t, done)
    requires g in s.spawned && g !in Elems(done)
    ensures Recycle(t, g).outcome.Done? <==> g !in s.dead
    ensures MovedBack(s, Recycle(t, g).pool, done + [g])
  {
    RecycleStepPooled(s, t, done, g);
    assert Elems(done + [g]) == Elems(done) + {g};
  }

  /** Recycling instances all spawned from `prefab` touches only `prefab`'s pool. */
  lemma {:induction false} OfPrefabAll(xs: seq<Id>, spawned: map<Id, Id>, prefab: Id, q: Id)
    requires forall g :: g in xs ==> g in spawned && spawned[g] == prefab
    ensures OfPrefab(xs, spawned, q) == if q == prefab then xs else []
  {
    if |xs| > 0 {
      var init := xs[..|xs| - 1];
      assert forall g :: g in init ==> g in xs;
      OfPrefabAll(init, spawned, prefab, q);
      assert xs == init + [xs[|xs| - 1]];
    }
  }

  /** Recycling nothing changes nothing. */
  lemma MovedNone(s: Pool, t: Pool)
    requires MovedBack(s, t, [])
    ensures t == s
  {
    assert Elems([]) == {};
    assert t.spawned == s.spawned;
    assert forall q :: q in s.pooled ==> t.pooled[q] == s.pooled[q] + [] == s.pooled[q];
    assert t.pooled == s.pooled;
  }

  /** One turn of a recycling loop over `temp`, the state after recycling temp[i]. */
  lemma RecycleTurn(s: Pool, t: Pool, temp: seq<Id>, i: nat)
    requires BackRefs(s) && Distinct(temp) && i < |temp|
    requires temp[i] in s.spawned
    requires MovedBack(s, t, temp[..i])
    ensures var r := Recycle(t, temp[i]);
      && MovedBack(s, r.pool, temp[..i + 1])
      && (r.outcome.Threw? <==> temp[i] in s.dead)
  {
    var g := temp[i];
    assert temp[..i] + [g] == temp[..i + 1];
    assert g !in Elems(temp[..i]);
    RecycleStep(s, t, temp[..i], g);
  }

  /** Recycling instances of one prefab appends them to its pool and leaves every other prefab alone. */
  lemma MovedOnly(s: Pool, t: Pool, done: seq<Id>, prefab: Id)
    requires MovedBack(s, t, done)
    requires forall g :: g in done ==> g in SpawnedOf(s, prefab)
    ensures forall q :: q in s.pooled ==> t.pooled[q] == s.pooled[q] + (if q == prefab then done else [])
    ensures forall q :: q != prefab ==> SpawnedOf(t, q) == SpawnedOf(s, q)
  {
    forall q | q in s.pooled
      ensures t.pooled[q] == s.pooled[q] + (if q == prefab then done else [])
    {
      OfPrefabAll(done, s.spawned, prefab, q);
    }
  }

  /** Every matching instance is recycled once the loop has run to the end. */
  lemma MovedAllMatching(s: Pool, t: Pool, done: seq<Id>, prefab: Nullable<Id>)
    requires MovedBack(s, t, done)
    requires Elems(done) == MatchingSpawned(s, prefab)
    ensures MatchingSpawned(t, prefab) == {}
  {
  }

  /** The index of the first destroyed instance in `xs`, or |xs| when there is none:
      the turn of a recycling loop over `xs` whose Recycle throws. */
  function FirstDead(xs: seq<Id>, dead: set<Id>): (k: nat)
    ensures k <= |xs|
    ensures forall j :: 0 <= j < k ==> xs[j] !in dead
    ensures k < |xs| ==> xs[k] in dead
  {
    if |xs| == 0 then 0
    else if xs[0] in dead then 0
    else 1 + FirstDead(xs[1..], dead)
  }

  /** Where the recycling loop over `temp` (the elements of `matching`) stops:
      after the first destroyed instance, or at the end when none is destroyed. */
  lemma StoppedAt(temp: seq<Id>, matching: set<Id>, dead: set<Id>, i: nat, threw: bool)
    requires Distinct(temp) && forall g :: g in temp <==> g in matching
    requires threw <==> FirstDead(temp, dead) < |temp|
    requires i == if threw then FirstDead(temp, dead) + 1 else |temp|
    ensures var recycled := temp[..i];
      && Distinct(recycled)
      && (forall g :: g in recycled ==> g in matching)
      && (threw <==> exists g :: g in matching && g in dead)
      && (threw ==> |recycled| > 0 && recycled[|recycled| - 1] in dead)
      && (forall j :: 0 <= j < |recycled| - 1 ==> recycled[j] !in dead)
      && (!threw ==> Elems(recycled) == matching && |recycled| == |matching|)
      && (matching == {} ==> recycled == [])
  {
    var recycled := temp[..i];
    assert forall j :: 0 <= j < i ==> recycled[j] == temp[j];
    assert Distinct(recycled);
    if threw {
      assert recycled[i - 1] in matching;
    } else {
      assert recycled == temp;
      forall g | g in matching
        ensures g !in dead
      {
        var j :| 0 <= j < |temp| && temp[j] == g;
      }
      assert Elems(recycled) == matching;
      DistinctCard(recycled);
    }
  }

  /** What is recycled into the pool of `q` is the recycled instances of `q`, each once. */
  lemma MovedPools(s: Pool, done: seq<Id>)
    requires Distinct(done)
    ensures forall q, x :: x in OfPrefab(done, s.spawned, q) ==> x in done && x in s.spawned && s.spawned[x] == q
    ensures forall q :: Distinct(OfPrefab(done, s.spawned, q))
  {
    forall q
      ensures forall x :: x in OfPrefab(done, s.spawned, q) ==> x in done && x in s.spawned && s.spawned[x] == q
      ensures Distinct(OfPrefab(done, s.spawned, q))
    {
      OfPrefabElems(done, s.spawned, q);
    }
  }

  /** After recycling, a pool still starts with its earlier idle instances. */
  lemma MovedKept(s: Pool, t: Pool, done: seq<Id>)
    requires MovedBack(s, t, done)
    ensures forall p, i :: p in s.pooled && 0 <= i < |s.pooled[p]| ==>
      i < |t.pooled[p]| && t.pooled[p][i] == s.pooled[p][i]
  {
  }

  /** After its earlier idle instances, a pool holds recycled instances of its own prefab. */
  lemma MovedAdded(s: Pool, t: Pool, done: seq<Id>)
    requires MovedBack(s, t, done)
    ensures forall p, i :: p in s.pooled && |s.pooled[p]| <= i < |t.pooled[p]| ==>
      && t.pooled[p][i] == OfPrefab(done, s.spawned, p)[i - |s.pooled[p]|]
      && t.pooled[p][i] in done && t.pooled[p][i] in s.spawned && s.spawned[t.pooled[p][i]] == p
  {
    forall p, i | p in s.pooled && |s.pooled[p]| <= i < |t.pooled[p]|
      ensures t.pooled[p][i] == OfPrefab(done, s.spawned, p)[i - |s.pooled[p]|]
      ensures t.pooled[p][i] in done && t.pooled[p][i] in s.spawned && s.spawned[t.pooled[p][i]] == p
    {
      var moved := OfPrefab(done, s.spawned, p);
      assert t.pooled[p] == s.pooled[p] + moved;
      OfPrefabElems(done, s.spawned, p);
      assert moved[i - |s.pooled[p]|] in moved;
    }
  }

  /** Recycling keeps every idle instance out of the spawned map. */
  lemma MovedDisjoint(s: Pool, t: Pool, done: seq<Id>)
    requires Disjoint(s) && Distinct(done)
    requires MovedBack(s, t, done)
    ensures Disjoint(t)
  {
    MovedKept(s, t, done);
    MovedAdded(s, t, done);
  }

  /** Recycling puts each instance in one slot of its own prefab's pool. */
  lemma MovedUnique(s: Pool, t: Pool, done: seq<Id>)
    requires Unique(s) && Disjoint(s) && Distinct(done)
    requires MovedBack(s, t, done)
    ensures Unique(t)
  {
    MovedKept(s, t, done);
    MovedAdded(s, t, done);
    MovedPools(s, done);
    forall p, i, q, j |
      && p in t.pooled && q in t.pooled && 0 <= i < |t.pooled[p]| && 0 <= j < |t.pooled[q]|
      && t.pooled[p][i] == t.pooled[q][j]
      ensures p == q && i == j
    {
      if |s.pooled[p]| <= i && |s.pooled[q]| <= j {
        assert p == q;
        var moved := OfPrefab(done, s.spawned, p);
        assert moved[i - |s.pooled[p]|] == moved[j - |s.pooled[p]|];
      }
    }
  }

  /** Recycling keeps the back references, the bounds and the creation order. */
  lemma MovedOrdered(s: Pool, t: Pool, done: seq<Id>)
    requires BackRefs(s) && Bounded(s) && Younger(s) && Distinct(done)
    requires MovedBack(s, t, done)
    ensures BackRefs(t) && Bounded(t) && Younger(t)
  {
    MovedKept(s, t, done);
    MovedAdded(s, t, done);
  }

  /** Recycling distinct spawned instances, in any order, keeps the invariant. */
  lemma MovedBackValid(s: Pool, t: Pool, done: seq<Id>)
    requires Distinct(done)
    requires MovedBack(s, t, done)
    ensures Valid(s) ==> Valid(t)
  {
    if Valid(s) {
      MovedDisjoint(s, t, done);
      MovedUnique(s, t, done);
      MovedOrdered(s, t, done);
    }
  }

  /** One pass of the foreach loop: Recycle(temp[i]), which throws exactly
      when that instance has been destroyed. */
  method RecycleNext(s: Pool, t: Pool, temp: seq<Id>, i: nat) returns (t': Pool, threw: bool)
    requires BackRefs(s) && Distinct(temp) && i < |temp|
    requires forall g :: g in temp ==> g in s.spawned
    requires i <= FirstDead(temp, s.dead)
    requires MovedBack(s, t, temp[..i])
    ensures MovedBack(s, t', temp[..i + 1])
    ensures threw <==> i == FirstDead(temp, s.dead)
  {
    assert temp[i] in s.spawned;
    RecycleTurn(s, t, temp, i);
    var r := Recycle(t, temp[i]);
    t' := r.pool;
    threw := r.outcome.Threw?;
  }

  /** The foreach loop shared by RecycleAll(prefab) and RecycleAll(): recycles
      the spawned instances `temp` in order and stops right after the first
      destroyed one, whose Recycle throws. `i` is how many were recycled. */
  method RecycleEach(s: Pool, temp: seq<Id>) returns (t: Pool, threw: bool, i: nat)
    requires BackRefs(s) && Distinct(temp)
    requires forall g :: g in temp ==> g in s.spawned
    ensures threw <==> FirstDead(temp, s.dead) < |temp|
    ensures i == if threw then FirstDead(temp, s.dead) + 1 else |temp|
    ensures MovedBack(s, t, temp[..i])
  {
    t := s;
    threw := false;
    i := 0;
    assert temp[..0] == [] && Elems([]) == {};
    while i < |temp| && !threw
      invariant 0 <= i <= |temp|
      invariant MovedBack(s, t, temp[..i])
      invariant !threw ==> i <= FirstDead(temp, s.dead)
      invariant threw ==> FirstDead(temp, s.dead) < |temp| && i == FirstDead(temp, s.dead) + 1
    {
      t, threw := RecycleNext(s, t, temp, i);
      i := i + 1;
    }
  }

  /** What the recycling loop of RecycleAll(prefab) leaves behind, once it has
      recycled `recycled`: every match when it did not throw, and for a
      non-null prefab only that prefab's pool grows. */
  lemma RecycleAllEnd(s: Pool, t: Pool, recycled: seq<Id>, threw: bool, prefab: Nullable<Id>)
    requires MovedBack(s, t, recycled)
    requires forall g :: g in recycled ==> g in MatchingSpawned(s, prefab)
    requires !threw ==> Elems(recycled) == MatchingSpawned(s, prefab) && |recycled| == |MatchingSpawned(s, prefab)|
    requires MatchingSpawned(s, prefab) == {} ==> recycled == []
    ensures !threw ==> MatchingSpawned(t, prefab) == {}
    ensures MatchingSpawned(s, prefab) == {} ==> t == s
    ensures prefab.NonNull? ==>
      && (forall q :: q in s.pooled ==> t.pooled[q] == s.pooled[q] + (if q == prefab.value then recycled else []))
      && (forall q :: q != prefab.value ==> SpawnedOf(t, q) == SpawnedOf(s, q))
    ensures !threw && prefab.NonNull? ==>
      && SpawnedOf(t, prefab.value) == {}
      && (prefab.value in s.pooled ==>
            CountPooled(t, prefab.value) == CountPooled(s, prefab.value) + |SpawnedOf(s, prefab.value)|)
  {
    if !threw {
      MovedAllMatching(s, t, recycled, prefab);
    }
    if MatchingSpawned(s, prefab) == {} {
      MovedNone(s, t);
    }
    if prefab.NonNull? {
      MatchingSpawnedOf(s, prefab.value);
      MovedOnly(s, t, recycled, prefab.value);
      if !threw {
        MatchingSpawnedOf(t, prefab.value);
      }
    }
  }

  /** ObjectPool.RecycleAll(GameObject): the instances whose prefab compares
      equal to `prefab` go back to the tail of their own pools, until one of
      them turns out to be destroyed. */
  method RecycleAll(s: Pool, prefab: Nullable<Id>) returns (t: Pool, threw: bool, recycled: seq<Id>)
    requires BackRefs(s)
    // the instances recycled, in order, each moved back to its own pool
    ensures Distinct(recycled)
    ensures forall g :: g in recycled ==> g in MatchingSpawned(s, prefab)
    ensures MovedBack(s, t, recycled)
    ensures Valid(s) ==> Valid(t)
    // the first destroyed instance is moved back and then throws
    ensures threw <==> exists g :: g in MatchingSpawned(s, prefab) && g in s.dead
    ensures threw ==> |recycled| > 0 && recycled[|recycled| - 1] in s.dead
    ensures forall j :: 0 <= j < |recycled| - 1 ==> recycled[j] !in s.dead
    ensures !threw ==> Elems(recycled) == MatchingSpawned(s, prefab) && MatchingSpawned(t, prefab) == {}
    ensures MatchingSpawned(s, prefab) == {} ==> t == s && !threw
    // a non-null prefab: only its own instances move, to the tail of its own pool
    ensures prefab.NonNull? ==>
      && (forall q :: q in s.pooled ==> t.pooled[q] == s.pooled[q] + (if q == prefab.value then recycled else []))
      && (forall q :: q != prefab.value ==> SpawnedOf(t, q) == SpawnedOf(s, q))
    ensures !threw && prefab.NonNull? ==>
      && SpawnedOf(t, prefab.value) == {}
      && (prefab.value in s.pooled ==>
            CountPooled(t, prefab.value) == CountPooled(s, prefab.value) + |SpawnedOf(s, prefab.value)|)
  {
    var temp := GetSpawned(s, prefab, Null, false);
    assert temp[0..] == temp;
    var i;
    t, threw, i := RecycleEach(s, temp);
    recycled := temp[..i];
    StoppedAt(temp, MatchingSpawned(s, prefab), s.dead, i, threw);
    RecycleAllEnd(s, t, recycled, threw, prefab);
    MovedBackValid(s, t, recycled);
  }

  /** The pools once the loop of RecycleAll() has recycled every spawned instance. */
  lemma RecycleEverythingResult(s: Pool, t: Pool, temp: seq<Id>)
    requires MovedBack(s, t, temp)
    requires Distinct(temp)
    requires forall g :: g in temp <==> g in s.spawned
    ensures t.spawned == map[]
    ensures forall q :: q in s.pooled ==>
      && CountPooled(t, q) == CountPooled(s, q) + |SpawnedOf(s, q)|
      && t.pooled[q][..|s.pooled[q]|] == s.pooled[q]
      && (forall g :: g in t.pooled[q][|s.pooled[q]|..] <==> g in SpawnedOf(s, q))
  {
    assert Elems(temp) == s.spawned.Keys;
    forall q | q in s.pooled
      ensures CountPooled(t, q) == CountPooled(s, q) + |SpawnedOf(s, q)|
      ensures t.pooled[q][..|s.pooled[q]|] == s.pooled[q]
      ensures forall g :: g in t.pooled[q][|s.pooled[q]|..] <==> g in SpawnedOf(s, q)
    {
      var appended := OfPrefab(temp, s.spawned, q);
      OfPrefabElems(temp, s.spawned, q);
      DistinctCard(appended);
      assert Elems(appended) == SpawnedOf(s, q);
      assert t.pooled[q][|s.pooled[q]|..] == appended;
    }
  }

  /** Everything RecycleAll() promises, from where its loop over the spawned instances `temp` stopped. */
  lemma RecycleEverythingEnd(s: Pool, t: Pool, temp: seq<Id>, i: nat, threw: bool)
    requires Distinct(temp) && forall g :: g in temp <==> g in s.spawned
    requires threw <==> FirstDead(temp, s.dead) < |temp|
    requires i == if threw then FirstDead(temp, s.dead) + 1 else |temp|
    requires MovedBack(s, t, temp[..i])
    ensures var recycled := temp[..i];
      && Distinct(recycled)
      && (forall g :: g in recycled ==> g in s.spawned)
      && (threw <==> exists g :: g in s.spawned && g in s.dead)
      && (threw ==> |recycled| > 0 && recycled[|recycled| - 1] in s.dead)
      && (forall j :: 0 <= j < |recycled| - 1 ==> recycled[j] !in s.dead)
      && (!threw ==> t.spawned == map[])
      && (!threw ==> forall q :: q in s.pooled ==>
            && CountPooled(t, q) == CountPooled(s, q) + |SpawnedOf(s, q)|
            && t.pooled[q][..|s.pooled[q]|] == s.pooled[q]
            && (forall g :: g in t.pooled[q][|s.pooled[q]|..] <==> g in SpawnedOf(s, q)))
  {
    StoppedAt(temp, s.spawned.Keys, s.dead, i, threw);
    if !threw {
      assert temp[..i] == temp;
      RecycleEverythingResult(s, t, temp);
    }
  }

  /** ObjectPool.RecycleAll(): every spawned instance goes back to its own
      prefab's pool, until one of them turns out to be destroyed. */
  method RecycleEverything(s: Pool) returns (t: Pool, threw: bool, recycled: seq<Id>)
    requires BackRefs(s)
    // the instances recycled, in order, each moved back to its own pool
    ensures Distinct(recycled)
    ensures forall g :: g in recycled ==> g in s.spawned
    ensures MovedBack(s, t, recycled)
    ensures Valid(s) ==> Valid(t)
    // the first destroyed instance is moved back and then throws
    ensures threw <==> exists g :: g in s.spawned && g in s.dead
    ensures threw ==> |recycled| > 0 && recycled[|recycled| - 1] in s.dead
    ensures forall j :: 0 <= j < |recycled| - 1 ==> recycled[j] !in s.dead
    // without a throw nothing stays spawned and each pool grows by its spawned instances
    ensures !threw ==> t.spawned == map[]
    ensures !threw ==> forall q :: q in s.pooled ==>
      && CountPooled(t, q) == CountPooled(s, q) + |SpawnedOf(s, q)|
      && t.pooled[q][..|s.pooled[q]|] == s.pooled[q]
      && (forall g :: g in t.pooled[q][|s.pooled[q]|..] <==> g in SpawnedOf(s, q))
  {
    var temp := SpawnedKeys(s);
    var i;
    t, threw, i := RecycleEach(s, temp);
    recycled := temp[..i];
    RecycleEverythingEnd(s, t, temp, i, threw);
    MovedBackValid(s, t, recycled);
  }

  /** Destroying a pool once all of the prefab's instances have been moved back into it. */
  lemma DestroyAfterRecycle(s: Pool, u: Pool, recycled: seq<Id>, prefab: Id)
    requires prefab in s.pooled
    requires MovedBack(s, u, recycled)
    requires u.pooled[prefab] == s.pooled[prefab] + recycled
    requires Elems(recycled) == SpawnedOf(s, prefab)
    ensures var t := DestroyPooled(u, prefab);
      && t.dead == s.dead + SpawnedOf(s, prefab) + Elems(s.pooled[prefab])
      && t.spawned.Keys == s.spawned.Keys - SpawnedOf(s, prefab)
      && (forall g :: g in t.spawned ==> t.spawned[g] == s.spawned[g])
      && t.next == s.next && t.startupPools == s.startupPools && t.startupCreated == s.startupCreated
  {
    ElemsAppend(s.pooled[prefab], recycled);
  }

  /** Destroying a pool after recycling keeps the invariant the recycling kept. */
  lemma DestroyAfterRecycleValid(s: Pool, u: Pool, prefab: Id)
    requires Valid(s) ==> Valid(u)
    ensures Valid(s) ==> Valid(DestroyPooled(u, prefab))
  {
    if Valid(s) {
      DestroyPooledValid(u, prefab);
    }
  }

  /** ObjectPool.DestroyAll(GameObject): recycles the prefab's spawned
      instances and then destroys its whole pool; a throw while recycling
      skips the destruction. */
  method DestroyAll(s: Pool, prefab: Id) returns (t: Pool, threw: bool, recycled: seq<Id>)
    requires BackRefs(s)
    // the prefab's instances recycled before returning or throwing, in order
    ensures Distinct(recycled)
    ensures forall g :: g in recycled ==> g in SpawnedOf(s, prefab)
    ensures threw <==> exists g :: g in SpawnedOf(s, prefab) && g in s.dead
    ensures threw ==> |recycled| > 0 && recycled[|recycled| - 1] in s.dead
    ensures forall j :: 0 <= j < |recycled| - 1 ==> recycled[j] !in s.dead
    // a throw skips the destruction, leaving the recycled instances moved back
    ensures threw ==> MovedBack(s, t, recycled)
    ensures t.pooled.Keys == s.pooled.Keys
    ensures Valid(s) ==> Valid(t)
    ensures !threw ==> CountPooled(t, prefab) == 0 && SpawnedOf(t, prefab) == {}
    ensures !threw && prefab in s.pooled ==>
      && (forall g :: g in SpawnedOf(s, prefab) ==> g in t.dead)
      && (forall i :: 0 <= i < |s.pooled[prefab]| ==> s.pooled[prefab][i] in t.dead)
    ensures forall q :: q in s.pooled && q != prefab ==> t.pooled[q] == s.pooled[q]
    ensures forall q :: q != prefab ==> SpawnedOf(t, q) == SpawnedOf(s, q)
    // nothing else is destroyed, created or reconfigured
    ensures t.next == s.next && t.startupPools == s.startupPools && t.startupCreated == s.startupCreated
    ensures !threw ==>
      && t.spawned.Keys == s.spawned.Keys - SpawnedOf(s, prefab)
      && (forall g :: g in t.spawned ==> t.spawned[g] == s.spawned[g])
    ensures !threw && prefab in s.pooled ==>
      t.dead == s.dead + SpawnedOf(s, prefab) + Elems(s.pooled[prefab])
    ensures prefab !in s.pooled ==> t == s && !threw && recycled == []
  {
    var u;
    u, threw, recycled := RecycleAll(s, NonNull(prefab));
    MatchingSpawnedOf(s, prefab);
    if prefab !in s.pooled {
      assert SpawnedOf(s, prefab) == {};
      DistinctCard(recycled);
      assert Elems(recycled) == {};
      return u, threw, recycled;
    }
    if threw {
      return u, threw, recycled;
    }
    t := DestroyPooled(u, prefab);
    DestroyAfterRecycleValid(s, u, prefab);
    DestroyAfterRecycle(s, u, recycled, prefab);
  }
}

=== FILE: ring_window.dfy ===
/**
  The sample ring buffer of the FPS overlay in the abstract: writing the
  k-th sample (counting from 0) into slot k % n of an n-slot buffer that
  starts all zero leaves in the buffer exactly the last min(k, n) samples,
  so the buffer's sum is the sum of that window.
 */
module RingWindow {

  function Sum(s: seq<int>): int
  {
    if |s| == 0 then 0 else s[0] + Sum(s[1..])
  }

  /** `n` zero slots, as Array.Clear leaves them. */
  function Zeros(n: nat): (z: seq<int>)
    ensures |z| == n
    ensures forall j :: 0 <= j < n ==> z[j] == 0
  {
    seq(n, j => 0)
  }

  lemma {:induction false} SumZeros(s: seq<int>)
    requires forall j :: 0 <= j < |s| ==> s[j] == 0
    ensures Sum(s) == 0
  {
    if |s| > 0 {
      SumZeros(s[1..]);
    }
  }

  lemma {:induction false} SumAppend(s: seq<int>, v: int)
    ensures Sum(s + [v]) == Sum(s) + v
  {
    if |s| > 0 {
      assert (s + [v])[1..] == s[1..] + [v];
      SumAppend(s[1..], v);
    }
  }

  /** Overwriting one slot changes the sum by the difference. */
  lemma {:induction false} SumUpdate(s: seq<int>, i: nat, v: int)
    requires i < |s|
    ensures Sum(s[i := v]) == Sum(s) - s[i] + v
  {
    if i > 0 {
      assert s[i := v][1..] == s[1..][i - 1 := v];
      SumUpdate(s[1..], i - 1, v);
    }
  }

  /** The buffer after writing the samples `h` in order, sample k into slot k % n. */
  function Ring(h: seq<int>, n: nat): (r: seq<int>)
    requires n > 0
    ensures |r| == n
  {
    if |h| == 0 then Zeros(n)
    else Ring(h[..|h| - 1], n)[(|h| - 1) % n := h[|h| - 1]]
  }

  function MinNat(a: nat, b: nat): nat
  {
    if a < b then a else b
  }

  /** The last min(|h|, n) samples: what an n-slot moving average covers. */
  function Window(h: seq<int>, n: nat): (w: seq<int>)
    ensures |w| == MinNat(|h|, n)
  {
    h[|h| - MinNat(|h|, n)..]
  }

  lemma MulAtLeast(d: int, n: int)
    requires d >= 1 && n > 0
    ensures d * n >= n
  {
  }

  /** Division with remainder is unique: r is the slot of q * n + r. */
  lemma ModUnique(a: int, n: int, q: int, r: int)
    requires n > 0 && 0 <= r < n && a == q * n + r
    ensures a % n == r
  {
    var q', r' := a / n, a % n;
    assert a == q' * n + r';
    assert (q - q') * n == r' - r;
    if q > q' {
      MulAtLeast(q - q', n);
    } else if q < q' {
      MulAtLeast(q' - q, n);
    }
  }

  /** Two indices less than n apart fall into different slots. */
  lemma SlotsDiffer(i: nat, k: nat, n: nat)
    requires n > 0 && i < k && k - i < n
    ensures i % n != k % n
  {
    var d := k / n - i / n;
    assert k - i == d * n + (k % n - i % n);
    if d >= 1 {
      MulAtLeast(d, n);
    } else if d <= -1 {
      MulAtLeast(-d, n);
    }
  }

  /** Indices exactly n apart share a slot. */
  lemma SlotRepeats(k: nat, n: nat)
    requires n > 0 && k >= n
    ensures (k - n) % n == k % n
  {
    var q, r := (k - n) / n, (k - n) % n;
    assert k - n == q * n + r;
    assert k == (q + 1) * n + r;
    ModUnique(k, n, q + 1, r);
  }

  /** What every slot holds: the latest sample written to it, or 0 if none was. */
  lemma {:induction false} RingSlots(h: seq<int>, n: nat)
    requires n > 0
    ensures forall i :: |h| - MinNat(|h|, n) <= i < |h| ==> Ring(h, n)[i % n] == h[i]
    ensures forall j :: |h| <= j < n ==> Ring(h, n)[j] == 0
  {
    if |h| > 0 {
      var h0 := h[..|h| - 1];
      var L := |h0|;
      RingSlots(h0, n);
      forall i | |h| - MinNat(|h|, n) <= i < |h|
        ensures Ring(h, n)[i % n] == h[i]
      {
        if i < L {
          SlotsDiffer(i, L, n);
          assert h0[i] == h[i];
        }
      }
      forall j | |h| <= j < n
        ensures Ring(h, n)[j] == 0
      {
        ModUnique(L, n, 0, L);
      }
    }
  }

  /** While the buffer is filling, the next sample lands in a zero slot and extends the window. */
  lemma RingFill(h0: seq<int>, v: int, n: nat)
    requires n > 0 && |h0| < n
    ensures Ring(h0, n)[|h0| % n] == 0
    ensures Window(h0 + [v], n) == Window(h0, n) + [v]
  {
    RingSlots(h0, n);
    ModUnique(|h0|, n, 0, |h0|);
    assert Window(h0, n) == h0;
  }

  /** Once the buffer is full, the next sample overwrites the oldest one in the window. */
  lemma RingWrap(h0: seq<int>, v: int, n: nat)
    requires n > 0 && |h0| >= n
    ensures Ring(h0, n)[|h0| % n] == Window(h0, n)[0]
    ensures Window(h0 + [v], n) == Window(h0, n)[1..] + [v]
  {
    var L := |h0|;
    var w0 := h0[L - n..];
    assert Window(h0, n) == w0 && w0[0] == h0[L - n];
    assert Window(h0 + [v], n) == (h0 + [v])[L + 1 - n..];
    assert (h0 + [v])[L + 1 - n..] == w0[1..] + [v];
    RingSlots(h0, n);
    SlotRepeats(L, n);
    assert Ring(h0, n)[(L - n) % n] == h0[L - n];
  }

  /** Writing one more sample keeps the buffer's sum equal to the window's. */
  lemma RingSumStep(h0: seq<int>, v: int, n: nat)
    requires n > 0
    requires Sum(Ring(h0, n)) == Sum(Window(h0, n))
    ensures Sum(Ring(h0 + [v], n)) == Sum(Window(h0 + [v], n))
  {
    var h := h0 + [v];
    var L := |h0|;
    assert h[..|h| - 1] == h0 && h[|h| - 1] == v;
    assert Ring(h, n) == Ring(h0, n)[L % n := v];
    SumUpdate(Ring(h0, n), L % n, v);
    var w0 := Window(h0, n);
    if L < n {
      RingFill(h0, v, n);
      SumAppend(w0, v);
    } else {
      RingWrap(h0, v, n);
      SumAppend(w0[1..], v);
    }
  }

  /** The buffer's sum is the sum of the last min(|h|, n) samples. */
  lemma {:induction false} RingSum(h: seq<int>, n: nat)
    requires n > 0
    ensures Sum(Ring(h, n)) == Sum(Window(h, n))
  {
    if |h| == 0 {
      SumZeros(Ring(h, n));
      assert Window(h, n) == [];
    } else {
      var h0 := h[..|h| - 1];
      RingSum(h0, n);
      assert h == h0 + [h[|h| - 1]];
      RingSumStep(h0, h[|h| - 1], n);
    }
  }
}
